=== FILE: README.md ===
# pubchem-scrapper in Dafny

This project models the core of `pubchem_scrapper`, which looks up exposure names on PubChem and records each compound's CID and IUPAC name. The model covers two source files.

`scrapping.py` is the page pipeline:
- `_make_url` appends the percent-encoded exposure name to the search URL.
- `get_card_element` looks for a result card with three selectors, one after another.
- `handle_substance_cards` follows a substance card once, to the page of the compound it names.
- `extract_data_from_element` and `_get_text` run the two regular expressions over the card text.
- `scrape` runs all of this for each exposure name and closes the browser at the end.

`utils.py` supplies:
- the `from_yaml` / `is_valid` pairs of the configuration records;
- the decision part of `get_browser_factory`.

The browser is a deterministic oracle:
- A `Web` maps each loadable URL to a `Page`.
- A page answers a CSS selector with the text of the card it finds, or nothing.
- Loading a URL the `Web` does not know raises.
- Every interaction (load a page, query a selector, close) goes into an event log. The log lets the contracts talk about call order, navigation counts and closing.

Modules:
- `Wrappers`: `Option` and `Result`.
- `Text`: character classes, case-insensitive literals, substring search.
- `Url`: UTF-8, `quote`, its inverse, `_make_url`.
- `Patterns`: the CID and IUPAC patterns. Each is stated as a declarative predicate (where a match starts, the leftmost start, the capture) and as a scanner whose contract connects the two.
- `Browser`: the oracle and the event log.
- `Scraping`: the card chain, the substance redirect, extraction, one name, and the orchestrator `Scrape`, a loop checked against the recursive `ScrapeAll`.
- `Config`: YAML values and the configuration records.
- `Drivers`: driver selection.

Points where the code's behaviour is easy to misread:
- **`/` in exposure names.** `parse.quote` keeps `/` unescaped, because its default is `safe='/'` (pubchem_scrapper/scrapping.py:136). So `Url.IsSafe` includes it.
- **IUPAC capture class.** The capture class is `[\d\w\,\-\s]` (pubchem_scrapper/scrapping.py:9-10). Its `\s` admits any whitespace character, including a line feed, not only spaces.
- **Third selector.** `get_card_element` tries a third selector, and its helper reads `other_fallback_selector` from the configuration (pubchem_scrapper/scrapping.py:95-98,130), but `ScrapeConstants` has no such field (pubchem_scrapper/utils.py:27-32). As written, a page where the main and fallback selectors both miss raises `AttributeError`, and the run ends. `Scraping.GetCardElementAsWritten` models that. The rest of the pipeline (`Scraping.HandleSubstanceCards`, `Scraping.ScrapeCompound`, `Scraping.Scrape`) uses the intended three-selector chain `Scraping.GetCardElement` (see Findings).
- **Configuration types.** `Scraping.Scrape` starts from a configuration whose URL and selectors are strings: a `Scraping.Target`. `Config` reads these entries as arbitrary YAML values. With a non-string URL, `url + escaped_exposure_name` (pubchem_scrapper/scrapping.py:137) raises `TypeError`, which is not modelled.

## Model

| member | source | states |
|---|---|---|
| Url.MakeUrl | pubchem_scrapper/scrapping.py:135-137 | The URL begins with the base URL unchanged, with no separator. Every later character is unreserved (RFC 3986 section 2.3), `/` or `%`. The URL is at least as long as base and name together. |
| Url.QuoteByte | pubchem_scrapper/scrapping.py:136 | A byte stays a single character exactly when it is an ASCII unreserved character or `/`, and then that character is the byte itself. Every other byte becomes `%` followed by two hexadecimal digits whose value is the byte. |
| Url.DecodeEncode | pubchem_scrapper/scrapping.py:136 | UTF-8 decoding inverts the UTF-8 encoding that `quote` applies before escaping. |
| Url.UnquoteQuoteBytes | pubchem_scrapper/scrapping.py:136 | Reading back the `%XX` escapes gives exactly the bytes that were quoted. |
| Url.QuoteRoundTrip | pubchem_scrapper/scrapping.py:136 | Unquoting the escaped exposure name gives the name back, so no information is lost. |
| Url.MakeUrlInjective | pubchem_scrapper/scrapping.py:135-137 | Two different exposure names never give the same URL under the same base. |
| Url.QuoteIdentityIffSafe | pubchem_scrapper/scrapping.py:136 | `quote` leaves a name unchanged exactly when every character is unreserved or `/`. Otherwise the result is strictly longer. |
| Url.QuoteChar | pubchem_scrapper/scrapping.py:136 | A safe character is written as itself. Any other character is written with at least two more characters than its UTF-8 encoding has bytes. |
| Url.QuoteAppend | pubchem_scrapper/scrapping.py:136 | Quoting a concatenation is the concatenation of the quoted parts. |
| Url.QuoteSpaceBetween | pubchem_scrapper/scrapping.py:136 | A space between two words is written as `%20`. |
| Url.MakeUrlExample | pubchem_scrapper/scrapping.py:135-137 | `ethyl benzene` is appended to the base as `ethyl%20benzene`. |
| Text.IndexOf | pubchem_scrapper/scrapping.py:75 | Returns a case-sensitive occurrence of a substring at or after a position, with no occurrence between that position and it, so it is the first one; or reports that there is none. |
| Text.ContainsText | pubchem_scrapper/scrapping.py:75 | `pat in t` holds exactly when the substring occurs at some position. |
| Patterns.DigitRun | pubchem_scrapper/scrapping.py:8 | The greedy `\d+` is a slice of the text, is all digits, and stops only at a non-digit or at the end. |
| Patterns.DigitRunIs | pubchem_scrapper/scrapping.py:8 | Any run of digits that ends at a non-digit or at the end of the text is exactly what `\d+` takes. |
| Patterns.FindCid | pubchem_scrapper/scrapping.py:8 | Finds the leftmost position, at or after a start, where `compound<ws>cid:<ws><digit>` matches case-insensitively. No match starts before it. |
| Patterns.GetCid | pubchem_scrapper/scrapping.py:154-156 | Returns "" exactly when the CID pattern matches nowhere. Otherwise it returns the maximal digit run after the head of the leftmost match. The result is digits only. |
| Patterns.CidFollowsHead | pubchem_scrapper/scrapping.py:8 | A non-empty CID stands right after the head of the leftmost match and is followed by a non-digit or the end of the text. |
| Patterns.CidLeading | pubchem_scrapper/scrapping.py:8 | For a text that starts with the CID head followed by digits and then a non-digit, the result is exactly those digits. |
| Patterns.CidExample | pubchem_scrapper/scrapping.py:8 | `Compound CID: 702` followed by a line feed yields `702`. |
| Patterns.Lookahead | pubchem_scrapper/scrapping.py:10 | `(?=\s+\n)` holds at a position exactly when one or more whitespace characters and then a line feed follow it. |
| Patterns.LazyEnd | pubchem_scrapper/scrapping.py:10 | The lazy `+?` stops at the first end where the lookahead holds. Every character up to that end is in the class. No earlier end has the lookahead. |
| Patterns.FindIupac | pubchem_scrapper/scrapping.py:9-11 | Finds the leftmost position where the IUPAC pattern matches, with the end of its capture. No match starts earlier. |
| Patterns.IupacEndUnique | pubchem_scrapper/scrapping.py:10 | A match has only one possible capture end. |
| Patterns.GetIupac | pubchem_scrapper/scrapping.py:154-156 | Returns "" exactly when no position starts a match. Otherwise it returns the capture of the leftmost match, which ends at the first place the lookahead holds. The result contains only word characters, digits, `,`, `-` and whitespace. |
| Patterns.IupacFollowedByBlankLine | pubchem_scrapper/scrapping.py:9-11 | A non-empty name stands right after an `iupac<ws>name:<ws>` head and is followed by whitespace and a line feed. |
| Patterns.IupacLeading | pubchem_scrapper/scrapping.py:9-11 | For a text that starts with the IUPAC head, then a name without whitespace, then whitespace and a line feed, the result is exactly that name. |
| Patterns.IupacExample | pubchem_scrapper/scrapping.py:9-11 | `IUPAC Name: ethanol` followed by a blank line yields `ethanol`. |
| Browser.QueriesOnly | pubchem_scrapper/scrapping.py:140-151 | A sequence of selector queries loads no page and does not close the session. |
| Browser.CloseOpenLog | pubchem_scrapper/scrapping.py:49-50 | Closing an open session makes `Close` the last event, and it occurs exactly once. |
| Scraping.GetCardElement | pubchem_scrapper/scrapping.py:89-99 | Queries main, then fallback, then the alternate fallback, in that order. It stops at the first selector that finds a card, so it makes 1 to 3 queries, and three when all miss. Every earlier selector missed. The card is the last queried selector's answer, and there is no card exactly when all three miss. |
| Scraping.GetCardElementAsWritten | pubchem_scrapper/scrapping.py:89-132 | As written: it raises `AttributeError` for `other_fallback_selector` exactly when the main and the fallback selector both miss. Otherwise it returns the main selector's card if there is one, and the fallback selector's card if not. It queries the main selector, then the fallback selector only if the main one missed. |
| Scraping.AsWrittenAgreesOnEarlyHit | pubchem_scrapper/scrapping.py:89-99 | When the main or the fallback selector finds the card, the as-written lookup and the three-selector chain return the same card after the same queries. |
| Scraping.AsWrittenAbortsWhenTwoTiersMiss | pubchem_scrapper/scrapping.py:130 | On a page where nothing matches, the as-written lookup raises, while the three-selector chain answers "no card". |
| Scraping.CidUrl | pubchem_scrapper/scrapping.py:78 | The redirect URL is the base URL followed by the CID itself, unescaped. |
| Scraping.HandleSubstanceCards | pubchem_scrapper/scrapping.py:69-86 | See the bullets after the table. |
| Scraping.SubstanceCardExample | pubchem_scrapper/scrapping.py:75-77 | A card reading `Compound CID: 1234` and then `Substance SID` is a substance card whose CID is `1234`. |
| Scraping.SubstanceRedirectExample | pubchem_scrapper/scrapping.py:75-80 | That card causes exactly one navigation, to the search URL followed by `1234`, whatever the redirect page holds. |
| Scraping.ExtractData | pubchem_scrapper/scrapping.py:102-108 | The name is always "". The CID and the IUPAC name are each characterised by their own pattern over the same text, independently of each other. |
| Scraping.ExtractWithoutPhrases | pubchem_scrapper/scrapping.py:102-108 | Text containing neither head yields the all-empty record, not an error. |
| Scraping.ScrapeCompound | pubchem_scrapper/scrapping.py:54-66 | See the bullets after the table. |
| Scraping.HandleSubstanceCardsCases | pubchem_scrapper/scrapping.py:69-86 | An ordinary card is kept without interaction. A substance card loads the base URL followed by its CID: an unloadable page raises, otherwise that page's card text is used when non-empty, and the substance card's text otherwise. |
| Scraping.ScrapeCompoundLoaded | pubchem_scrapper/scrapping.py:54-66 | On a loadable page, the record is `extract_data_from_element` of the text `handle_substance_cards` yields. The log is the page load, then the card lookup, then the redirect. |
| Scraping.ScrapeCompoundOrdinaryCard | pubchem_scrapper/scrapping.py:54-66 | A found card that is not a substance card yields the extraction of that card's text, after one page load and the card lookup. |
| Scraping.ScrapeCompoundRedirectFails | pubchem_scrapper/scrapping.py:54-86 | A substance card whose compound page cannot be loaded ends the step with that load failure, after two navigations. |
| Scraping.ScrapeCompoundRedirected | pubchem_scrapper/scrapping.py:54-86 | A substance card whose compound page loads yields the extraction of that page's card text when it is non-empty, and of the substance card's text otherwise. The log is both loads and both lookups, in order. |
| Scraping.PerNameWellBehaved | pubchem_scrapper/scrapping.py:43-46 | The step for one exposure name loads at most two pages and never closes the session. |
| Scraping.FailureEndsRun | pubchem_scrapper/scrapping.py:43-49 | Once a name has raised, the names after it change neither the outcome nor the log. |
| Scraping.ScrapeAllSucceedsIff | pubchem_scrapper/scrapping.py:43-48 | A run succeeds exactly when every exposure name can be scraped without raising. |
| Scraping.ScrapeAllRecords | pubchem_scrapper/scrapping.py:42-48 | A successful run has one record per name, in input order. Record `i` is the record scraped for name `i` with its name set to name `i`. |
| Scraping.ScrapeAllFirstFailure | pubchem_scrapper/scrapping.py:38-51 | A failed run reports the exception of the first name that raised, and every earlier name succeeded. |
| Scraping.ScrapeAllLog | pubchem_scrapper/scrapping.py:43-48 | During the loop the session stays open, and at most two pages are loaded per name. |
| Scraping.Scrape | pubchem_scrapper/scrapping.py:35-51 | See the bullets after the table. |
| Config.DataSelectorsFromYaml | pubchem_scrapper/utils.py:16-20 | Succeeds exactly when the document is a mapping. `cid` and `iupac` are the entries stored verbatim, or "" when missing. |
| Config.ScrapeConstantsFromYaml | pubchem_scrapper/utils.py:34-50 | Succeeds exactly when the document is a mapping and `data_selectors` is a mapping or absent. Each string field is its entry verbatim, or "" when missing. `data_selectors` is read from its entry, or from the empty mapping when missing, which gives all-empty selectors. |
| Config.CsvPropertiesFromYaml | pubchem_scrapper/utils.py:68-72 | Succeeds exactly when the document is a mapping. The headers are the `headers` entry, or the empty list. |
| Config.CsvConstantsFromYaml | pubchem_scrapper/utils.py:83-88 | Succeeds exactly when the document is a mapping and `in_file` and `out_file` are each a mapping or absent. |
| Config.ConstantsFromYaml | pubchem_scrapper/utils.py:99-103 | Succeeds exactly when the document, its `target` and its `csv`, and their nested sections are mappings or absent. |
| Config.DataSelectorsValidIff | pubchem_scrapper/utils.py:22-23 | Data selectors are valid exactly when the document holds a truthy `cid` and a truthy `iupac`. |
| Config.ScrapeConstantsValidIff | pubchem_scrapper/utils.py:52-61 | A target is valid exactly when `name`, `url`, `main_selector` and `fallback_selector` are present and truthy, and `data_selectors` is complete. |
| Config.EmptyTargetInvalid | pubchem_scrapper/utils.py:34-61 | `from_yaml({})` succeeds, but the result is never valid. |
| Config.CsvPropertiesValidIff | pubchem_scrapper/utils.py:74-75 | CSV properties are valid exactly when the headers have a non-zero length. The check raises exactly when the headers are a value with no length. |
| Config.CsvConstantsValidIff | pubchem_scrapper/utils.py:90-91 | The CSV constants are valid exactly when both the input-file and the output-file properties are valid. |
| Config.ConstantsValidIff | pubchem_scrapper/utils.py:105-106 | A whole configuration document is valid exactly when every entry the validators test is present and truthy (so `0`, `false` and "" fail), with headers of non-zero length. |
| Config.ScrapeConstantsRoundTrip | pubchem_scrapper/utils.py:34-50 | Reading back a target written as a document gives the same target. |
| Drivers.Candidates | pubchem_scrapper/utils.py:116-118 | The candidates are exactly the names not starting with `.`, each with its multiplicity in the listing. |
| Drivers.SelectDriver | pubchem_scrapper/utils.py:115-132 | See the bullets after the table. |
| Drivers.SelectDriverAsWritten | pubchem_scrapper/utils.py:129-131 | As written, a single candidate that is neither `geckodriver` nor `chromedriver` raises `NameError` for `path`, and the intended `ValueError` for it is never raised. |
| Drivers.AsWrittenRaisesNameError | pubchem_scrapper/utils.py:123-131 | The as-written and the corrected selection agree on every listing, except that each "unrecognised executable" `ValueError` is a `NameError` as written. |
| Drivers.UnknownBinaryExample | pubchem_scrapper/utils.py:116-131 | A directory holding `.DS_Store` and `msedgedriver` should give `ValueError` but gives `NameError`. |
| Drivers.HiddenFileIgnored | pubchem_scrapper/utils.py:116-118 | Inserting a dot-file anywhere in the listing leaves the candidates unchanged. |
| Drivers.HiddenFileIgnoredBySelection | pubchem_scrapper/utils.py:115-132 | Inserting a dot-file never changes the chosen driver or the error. |
| Drivers.ListingOrderIrrelevant | pubchem_scrapper/utils.py:116-132 | Two listings with the same names, in any order, either both fail or both choose the same driver. |

`Scraping.HandleSubstanceCards` states:
- No card gives "" with no browser interaction.
- Otherwise it navigates at most once. It navigates exactly when the card contains `Substance SID` (case-sensitively) and a CID can be extracted from it. The target is the base URL followed by that CID.
- The result differs from the original text only when it is the redirect page's non-empty card text, and non-empty alternate text is always preferred.
- Non-empty text never becomes "".
- For a substance card it raises exactly when the redirect page cannot be loaded. When that page loads, its card lookup follows the navigation in the log.

`Scraping.ScrapeCompound` states:
- It first loads the given URL, then loads one or two pages in total, and never closes the session.
- An unloadable URL raises. Any exception is a page load failing on an unloadable URL.
- The name is "".
- A page without a card yields the all-empty record.
- With a card, the record is what `extract_data_from_element` makes of the text `handle_substance_cards` yields. `Scraping.ScrapeCompoundLoaded` states this in general. `Scraping.ScrapeCompoundOrdinaryCard`, `Scraping.ScrapeCompoundRedirectFails` and `Scraping.ScrapeCompoundRedirected` state it for each kind of card.

`Scraping.Scrape` states:
- The loop computes `ScrapeAll`: the outcome and the log up to closing.
- On every path, normal or exceptional, the session is then closed once, as the last event.
- At most two pages are loaded per name.
- On success there is one record per name, in order, carrying that name.

`Drivers.SelectDriver` states:
- A single non-dot name `geckodriver` selects Firefox, and a single `chromedriver` selects Chrome. Success occurs in no other case.
- Zero or several candidates raise a `ValueError` listing them.
- Any other single name raises a `ValueError` naming it.

## Left out

- `_get_element` (pubchem_scrapper/scrapping.py:140-151): the Selenium wait, its 10-second timeout and 0.25-second polling interval are replaced by `Browser.Find`, which answers at once. The warning it logs is not modelled.
- Logging (`LOGGER.info`, `LOGGER.warning`) and the module-level logger have no effect on results and are not modelled.
- `create_constants` (pubchem_scrapper/utils.py:109-112) reads a file. The model starts from the parsed document, a `Config.Yaml` value. YAML floats, dates and non-string keys are not represented.
- `create_browser` (pubchem_scrapper/utils.py:135-144) constructs the Selenium driver. The model's session is the `Web` parameter of `Scraping.Scrape`.
  - As written, `create_browser` passes the undefined name `path_s` (pubchem_scrapper/utils.py:143). Every call that gets past `get_browser_factory` therefore raises `NameError` for `path_s`.
  - `scrape` then reaches `browser.close()` with `browser` unbound.
  - The model starts from a live session, so this path is not modelled.
- `Scraping.Scrape`: the pipeline models the intended three-selector chain `Scraping.GetCardElement`. The as-written abort with `AttributeError`, when the main and fallback selectors both miss, is modelled only at `Scraping.GetCardElementAsWritten`.
- `Scraping.Scrape`: the only exception a step can raise in the model is a failed page load. Other session failures (a crash during a query, a failure of `close` itself) are not represented.
- `Patterns.GetCid`: `\d` is restricted to the ASCII digits. Python's `str` patterns also accept every other Unicode decimal digit, so the model's CID matches fewer texts than the source's.
- `Patterns.GetIupac`: `\w` and `\d` are restricted to ASCII. Under `re.IGNORECASE` only the ASCII case pairs are modelled, plus U+0130 and U+0131 for the letter `i`. Non-ASCII letters in a name end the capture in the model but not in the source.
- `Drivers.SelectDriver`: the Selenium classes returned by `get_browser_factory` are represented by `BrowserKind`, and the executable by its file name. The order of the directory listing is whatever the file system yields, which is why `Drivers.ListingOrderIrrelevant` is stated.
- `Config.CsvConstantsFromYaml`: the contract says when reading succeeds. The properties read are constrained through the validity lemmas, not field by field.
- `Config.ConstantsFromYaml`: the contract says when reading succeeds. The records read are constrained through the validity lemmas and `Config.ScrapeConstantsRoundTrip`, not field by field.
- `pubchem_scrapper/guard.py`, `pubchem_scrapper/io.py`, `pubchem_scrapper/main.py` and `scrape.py` hold file checks, CSV reading and command-line wiring only. They are not part of this model.

## Findings

| source | as written | input that shows it | evidently intended | confidence | as-written member | corrected member |
|---|---|---|---|---|---|---|
| pubchem_scrapper/scrapping.py:130 | Reads `constants.target.other_fallback_selector`, but the configuration type (pubchem_scrapper/utils.py:27-32) has no such field, so `AttributeError` is raised | A result page on which neither the main nor the fallback selector finds a card (`Scraping.AsWrittenAbortsWhenTwoTiersMiss`) | A third, alternate-fallback selector in the configuration, queried after the other two | high, not executed | Scraping.GetCardElementAsWritten | Scraping.GetCardElement |
| pubchem_scrapper/utils.py:130 | The error message reads `path.name`, and `path` is undefined there, so `NameError` is raised | A driver directory holding `.DS_Store` and `msedgedriver` (`Drivers.UnknownBinaryExample`) | A `ValueError` naming the unrecognised executable | high, not executed | Drivers.SelectDriverAsWritten | Drivers.SelectDriver |

=== FILE: browser.dfy ===
/** The browser as a deterministic oracle.

    A loaded page answers a CSS selector with the visible text of the element
    it finds, or nothing: this stands for `_get_element`, whose bounded wait
    either yields an element or gives up with a warning. The browser can load
    the URLs of its `Web`; asking it to load any other URL raises, which is how
    a hard session failure enters the model. Every interaction is recorded in
    a log so that call order and navigation counts can be stated. */
module Browser {
  import opened Wrappers

  /** A rendered page: for each selector that finds an element, that element's text. */
  datatype Page = Page(cards: map<string, string>)

  /** The pages the browser can load, by URL. */
  type Web = map<string, Page>

  /** One interaction with the browser session. */
  datatype Event =
    | Navigate(url: string)      // `browser.get(url)`
    | Query(selector: string)    // one `_get_element` call
    | Close                      // `browser.close()`

  /** `_get_element(browser, selector)` on the loaded page. */
  function Find(page: Page, selector: string): Option<string> {
    if selector in page.cards then Some(page.cards[selector]) else None
  }

  /** The number of page loads in a log. */
  function Navigations(log: seq<Event>): (n: nat)
    ensures n <= |log|
  {
    if log == [] then 0 else (if log[0].Navigate? then 1 else 0) + Navigations(log[1..])
  }

  /** The number of times the session is closed in a log. */
  function Closes(log: seq<Event>): (n: nat)
    ensures n <= |log|
  {
    if log == [] then 0 else (if log[0].Close? then 1 else 0) + Closes(log[1..])
  }

  /** Counting distributes over concatenated logs. */
  lemma {:induction false} CountsAppend(a: seq<Event>, b: seq<Event>)
    ensures Navigations(a + b) == Navigations(a) + Navigations(b)
    ensures Closes(a + b) == Closes(a) + Closes(b)
  {
    if a == [] {
      assert a + b == b;
    } else {
      assert (a + b)[0] == a[0];
      assert (a + b)[1..] == a[1..] + b;
      CountsAppend(a[1..], b);
    }
  }

  /** A log of selector queries alone loads no page and never closes the session. */
  lemma {:induction false} QueriesOnly(log: seq<Event>)
    requires forall k :: 0 <= k < |log| ==> log[k].Query?
    ensures Navigations(log) == 0 && Closes(log) == 0
  {
    if log != [] {
      QueriesOnly(log[1..]);
    }
  }

  /** A log of a session that is still open after `steps` exposure names, each
      of which loaded at most two pages. */
  predicate OpenLog(log: seq<Event>, steps: nat) {
    Closes(log) == 0 && Navigations(log) <= 2 * steps
  }

  lemma ExtendOpenLog(log: seq<Event>, more: seq<Event>, steps: nat)
    requires OpenLog(log, steps) && Closes(more) == 0 && Navigations(more) <= 2
    ensures OpenLog(log + more, steps + 1)
  {
    CountsAppend(log, more);
  }

  /** Closing an open session: `Close` is then the last event and occurs once. */
  lemma CloseOpenLog(log: seq<Event>, steps: nat, bound: nat)
    requires OpenLog(log, steps) && steps <= bound
    ensures var closed := log + [Close];
            closed[|closed| - 1] == Close && Closes(closed) == 1 && Navigations(closed) <= 2 * bound
  {
    CountsAppend(log, [Close]);
  }
}

=== FILE: config.dfy ===
/** The configuration records and their `from_yaml` / `is_valid` pairs.

    A parsed YAML document is a tree of `Yaml` values. Each `from_yaml` reads
    its keys with `dict.get(key, default)` and stores whatever value is there
    verbatim, so a field holds any YAML value; `is_valid` then tests Python
    truthiness, and `CsvProperties.is_valid` applies `len`, which raises on a
    value that has no length. */
module Config {
  import opened Wrappers

  /** A parsed YAML node. */
  datatype Yaml =
    | YNull
    | YBool(b: bool)
    | YInt(i: int)
    | YStr(s: string)
    | YList(items: seq<Yaml>)
    | YMap(entries: map<string, Yaml>)

  /** Exceptions the configuration code can raise. */
  datatype ConfigError =
    | NoGetMethod   // `AttributeError`: only a mapping has `.get`
    | NoLength      // `TypeError`: the value has no `len()`

  /** Python's `bool(v)`. */
  predicate Truthy(v: Yaml) {
    match v
    case YNull => false
    case YBool(b) => b
    case YInt(i) => i != 0
    case YStr(s) => s != ""
    case YList(items) => items != []
    case YMap(entries) => entries != map[]
  }

  /** `v.get(key, default)`. */
  function Get(v: Yaml, key: string, default: Yaml): Result<Yaml, ConfigError> {
    match v
    case YMap(entries) => Success(if key in entries then entries[key] else default)
    case _ => Failure(NoGetMethod)
  }

  /** The value stored under `key` when `v` is a mapping that has it. */
  predicate Has(v: Yaml, key: string) {
    v.YMap? && key in v.entries
  }

  /** `v.get(key, {})` has a `.get` of its own. */
  predicate MapOrAbsent(v: Yaml, key: string) {
    Has(v, key) ==> v.entries[key].YMap?
  }

  const EmptyStr := YStr("")
  const EmptyMap := YMap(map[])
  const EmptyList := YList([])

  // ---------------------------------------------------------------------------
  // DataSelectorConstants

  datatype DataSelectorConstants = DataSelectorConstants(cid: Yaml, iupac: Yaml)

  /** `DataSelectorConstants.from_yaml`. */
  function DataSelectorsFromYaml(v: Yaml): (r: Result<DataSelectorConstants, ConfigError>)
    ensures r.Success? <==> v.YMap?
    ensures r.Success? ==> r.value.cid == (if Has(v, "cid") then v.entries["cid"] else EmptyStr)
    ensures r.Success? ==> r.value.iupac == (if Has(v, "iupac") then v.entries["iupac"] else EmptyStr)
  {
    match (Get(v, "cid", EmptyStr), Get(v, "iupac", EmptyStr))
    case (Success(cid), Success(iupac)) => Success(DataSelectorConstants(cid, iupac))
    case _ => Failure(NoGetMethod)
  }

  /** `DataSelectorConstants.is_valid`. */
  predicate DataSelectorsIsValid(d: DataSelectorConstants) {
    Truthy(d.cid) && Truthy(d.iupac)
  }

  // ---------------------------------------------------------------------------
  // ScrapeConstants

  /** The scrape target. It has a main and a fallback selector only: there is
      no field for the alternate-fallback selector the pipeline reads. */
  datatype ScrapeConstants = ScrapeConstants(
    name: Yaml, url: Yaml, mainSelector: Yaml, fallbackSelector: Yaml, dataSelectors: DataSelectorConstants)

  /** `ScrapeConstants.from_yaml`. */
  function ScrapeConstantsFromYaml(v: Yaml): (r: Result<ScrapeConstants, ConfigError>)
    ensures r.Success? <==> v.YMap? && MapOrAbsent(v, "data_selectors")
    ensures r.Success? ==> r.value.name == (if Has(v, "name") then v.entries["name"] else EmptyStr)
    ensures r.Success? ==> r.value.url == (if Has(v, "url") then v.entries["url"] else EmptyStr)
    ensures r.Success? ==> r.value.mainSelector == (if Has(v, "main_selector") then v.entries["main_selector"] else EmptyStr)
    ensures r.Success? ==> r.value.fallbackSelector
                           == (if Has(v, "fallback_selector") then v.entries["fallback_selector"] else EmptyStr)
    ensures r.Success? ==> r.value.dataSelectors
                           == DataSelectorsFromYaml(if Has(v, "data_selectors") then v.entries["data_selectors"] else EmptyMap).value
  {
    if !v.YMap? then Failure(NoGetMethod)
    else
      var name := Get(v, "name", EmptyStr).value;
      var url := Get(v, "url", EmptyStr).value;
      var mainSelector := Get(v, "main_selector", EmptyStr).value;
      var fallbackSelector := Get(v, "fallback_selector", EmptyStr).value;
      match DataSelectorsFromYaml(Get(v, "data_selectors", EmptyMap).value)
      case Failure(e) => Failure(e)
      case Success(dataSelectors) => Success(ScrapeConstants(name, url, mainSelector, fallbackSelector, dataSelectors))
  }

  /** `ScrapeConstants.is_valid`. */
  predicate ScrapeConstantsIsValid(c: ScrapeConstants) {
    Truthy(c.name) && Truthy(c.url) && Truthy(c.mainSelector) && Truthy(c.fallbackSelector)
    && DataSelectorsIsValid(c.dataSelectors)
  }

  // ---------------------------------------------------------------------------
  // CsvProperties and CsvConstants

  datatype CsvProperties = CsvProperties(headers: Yaml)

  /** `CsvProperties.from_yaml`. */
  function CsvPropertiesFromYaml(v: Yaml): (r: Result<CsvProperties, ConfigError>)
    ensures r.Success? <==> v.YMap?
    ensures r.Success? ==> r.value.headers == (if Has(v, "headers") then v.entries["headers"] else EmptyList)
  {
    match Get(v, "headers", EmptyList)
    case Success(headers) => Success(CsvProperties(headers))
    case Failure(e) => Failure(e)
  }

  /** Python's `len(v)`. */
  function Length(v: Yaml): Result<nat, ConfigError> {
    match v
    case YStr(s) => Success(|s|)
    case YList(items) => Success(|items|)
    case YMap(entries) => Success(|entries|)
    case _ => Failure(NoLength)
  }

  /** `CsvProperties.is_valid`: `all([len(self.headers)])`. */
  function CsvPropertiesIsValid(p: CsvProperties): Result<bool, ConfigError> {
    match Length(p.headers)
    case Success(n) => Success(n != 0)
    case Failure(e) => Failure(e)
  }

  datatype CsvConstants = CsvConstants(inFile: CsvProperties, outFile: CsvProperties)

  /** `CsvConstants.from_yaml`. */
  function CsvConstantsFromYaml(v: Yaml): (r: Result<CsvConstants, ConfigError>)
    ensures r.Success? <==> v.YMap? && MapOrAbsent(v, "in_file") && MapOrAbsent(v, "out_file")
  {
    if !v.YMap? then Failure(NoGetMethod)
    else
      match (CsvPropertiesFromYaml(Get(v, "in_file", EmptyMap).value),
             CsvPropertiesFromYaml(Get(v, "out_file", EmptyMap).value))
      case (Success(inFile), Success(outFile)) => Success(CsvConstants(inFile, outFile))
      case _ => Failure(NoGetMethod)
  }

  /** `CsvConstants.is_valid`: both list items are evaluated before `all`, so
      either one raising makes the call raise. */
  function CsvConstantsIsValid(c: CsvConstants): Result<bool, ConfigError> {
    match (CsvPropertiesIsValid(c.inFile), CsvPropertiesIsValid(c.outFile))
    case (Success(a), Success(b)) => Success(a && b)
    case (Failure(e), _) => Failure(e)
    case (_, Failure(e)) => Failure(e)
  }

  // ---------------------------------------------------------------------------
  // Constants

  datatype Constants = Constants(target: ScrapeConstants, csv: CsvConstants)

  /** `Constants.from_yaml`. */
  function ConstantsFromYaml(v: Yaml): (r: Result<Constants, ConfigError>)
    ensures r.Success? <==>
              v.YMap?
              && (Has(v, "target") ==> v.entries["target"].YMap? && MapOrAbsent(v.entries["target"], "data_selectors"))
              && (Has(v, "csv") ==> v.entries["csv"].YMap? && MapOrAbsent(v.entries["csv"], "in_file")
                                    && MapOrAbsent(v.entries["csv"], "out_file"))
  {
    if !v.YMap? then Failure(NoGetMethod)
    else
      match (ScrapeConstantsFromYaml(Get(v, "target", EmptyMap).value),
             CsvConstantsFromYaml(Get(v, "csv", EmptyMap).value))
      case (Success(target), Success(csv)) => Success(Constants(target, csv))
      case (Failure(e), _) => Failure(e)
      case (_, Failure(e)) => Failure(e)
  }

  /** `Constants.is_valid`. */
  function ConstantsIsValid(c: Constants): Result<bool, ConfigError> {
    match CsvConstantsIsValid(c.csv)
    case Success(csvValid) => Success(ScrapeConstantsIsValid(c.target) && csvValid)
    case Failure(e) => Failure(e)
  }

  // ---------------------------------------------------------------------------
  // What a valid document must contain

  /** `v` maps `key` to a truthy value. */
  predicate HasTruthy(v: Yaml, key: string) {
    Has(v, key) && Truthy(v.entries[key])
  }

  predicate CompleteDataSelectors(v: Yaml) {
    HasTruthy(v, "cid") && HasTruthy(v, "iupac")
  }

  predicate CompleteTarget(v: Yaml) {
    HasTruthy(v, "name") && HasTruthy(v, "url") && HasTruthy(v, "main_selector")
    && HasTruthy(v, "fallback_selector")
    && Has(v, "data_selectors") && CompleteDataSelectors(v.entries["data_selectors"])
  }

  /** `v` maps `key` to a value with a non-zero length. */
  predicate HasNonEmpty(v: Yaml, key: string) {
    Has(v, key) && Length(v.entries[key]).Success? && Length(v.entries[key]).value != 0
  }

  predicate CompleteCsv(v: Yaml) {
    Has(v, "in_file") && HasNonEmpty(v.entries["in_file"], "headers")
    && Has(v, "out_file") && HasNonEmpty(v.entries["out_file"], "headers")
  }

  predicate CompleteConstants(v: Yaml) {
    Has(v, "target") && CompleteTarget(v.entries["target"])
    && Has(v, "csv") && CompleteCsv(v.entries["csv"])
  }

  /** Data selectors read from a mapping are valid exactly when the mapping
      holds a truthy `cid` and a truthy `iupac`. */
  lemma DataSelectorsValidIff(v: Yaml)
    requires v.YMap?
    ensures DataSelectorsIsValid(DataSelectorsFromYaml(v).value) <==> CompleteDataSelectors(v)
  {
  }

  /** A scrape target read from a document is valid exactly when the document
      has truthy `name`, `url`, `main_selector` and `fallback_selector` entries
      and complete `data_selectors`; a missing key falls back to an empty value
      and so makes the target invalid. */
  lemma ScrapeConstantsValidIff(v: Yaml)
    requires ScrapeConstantsFromYaml(v).Success?
    ensures ScrapeConstantsIsValid(ScrapeConstantsFromYaml(v).value) <==> CompleteTarget(v)
  {
    var c := ScrapeConstantsFromYaml(v).value;
    var ds := Get(v, "data_selectors", EmptyMap).value;
    assert c.dataSelectors == DataSelectorsFromYaml(ds).value;
    DataSelectorsValidIff(ds);
  }

  /** `from_yaml({})` reads successfully but is never valid. */
  lemma EmptyTargetInvalid()
    ensures ScrapeConstantsFromYaml(EmptyMap).Success?
    ensures !ScrapeConstantsIsValid(ScrapeConstantsFromYaml(EmptyMap).value)
  {
    ScrapeConstantsValidIff(EmptyMap);
  }

  /** CSV properties are valid exactly when their headers have a non-zero
      length, and checking them raises exactly when the headers have no length. */
  lemma CsvPropertiesValidIff(v: Yaml)
    requires v.YMap?
    ensures var p := CsvPropertiesFromYaml(v).value;
            CsvPropertiesIsValid(p) == Success(true) <==> HasNonEmpty(v, "headers")
    ensures var p := CsvPropertiesFromYaml(v).value;
            CsvPropertiesIsValid(p).Failure? <==> Has(v, "headers") && Length(v.entries["headers"]).Failure?
  {
  }

  /** The CSV constants are valid exactly when both files' properties are. */
  lemma CsvConstantsValidIff(c: CsvConstants)
    ensures CsvConstantsIsValid(c) == Success(true)
            <==> CsvPropertiesIsValid(c.inFile) == Success(true) && CsvPropertiesIsValid(c.outFile) == Success(true)
  {
  }

  /** A whole configuration document is valid exactly when every entry the
      validators test is present and truthy, with headers of non-zero length. */
  lemma ConstantsValidIff(v: Yaml)
    requires ConstantsFromYaml(v).Success?
    ensures ConstantsIsValid(ConstantsFromYaml(v).value) == Success(true) <==> CompleteConstants(v)
  {
    var c := ConstantsFromYaml(v).value;
    var t := Get(v, "target", EmptyMap).value;
    var csv := Get(v, "csv", EmptyMap).value;
    assert c.target == ScrapeConstantsFromYaml(t).value;
    assert c.csv == CsvConstantsFromYaml(csv).value;
    ScrapeConstantsValidIff(t);
    var inFile := Get(csv, "in_file", EmptyMap).value;
    var outFile := Get(csv, "out_file", EmptyMap).value;
    CsvPropertiesValidIff(inFile);
    CsvPropertiesValidIff(outFile);
  }

  // ---------------------------------------------------------------------------
  // Writing a record back as a document

  function DataSelectorsToYaml(d: DataSelectorConstants): Yaml {
    YMap(map["cid" := d.cid, "iupac" := d.iupac])
  }

  function ScrapeConstantsToYaml(c: ScrapeConstants): Yaml {
    YMap(map["name" := c.name, "url" := c.url, "main_selector" := c.mainSelector,
             "fallback_selector" := c.fallbackSelector, "data_selectors" := DataSelectorsToYaml(c.dataSelectors)])
  }

  /** `from_yaml` keeps each value verbatim: reading back a written target gives it back. */
  lemma ScrapeConstantsRoundTrip(c: ScrapeConstants)
    ensures ScrapeConstantsFromYaml(ScrapeConstantsToYaml(c)) == Success(c)
  {
  }
}

=== FILE: drivers.dfy ===
/** The decision part of `get_browser_factory`: from the names in the driver
    directory, choose which browser to start and with which executable.

    The directory listing is a sequence of file names in whatever order the
    file system yields them. Constructing the Selenium browser is not modelled;
    the result names the browser variant and the executable. */
module Drivers {
  import opened Wrappers

  datatype BrowserKind = Firefox | Chrome

  /** The browser factory to use and the executable to give it. */
  datatype Driver = Driver(kind: BrowserKind, executable: string)

  datatype DriverError =
    | ExpectedOneExecutable(found: seq<string>)  // `ValueError`: zero or several candidates
    | UnrecognisedExecutable(name: string)       // `ValueError`: the one candidate is not a known driver
    | UndefinedName(identifier: string)          // `NameError`

  const GeckoDriver := "geckodriver"
  const ChromeDriver := "chromedriver"

  /** `name.startswith(".")`. */
  predicate IsHidden(name: string) {
    |name| > 0 && name[0] == '.'
  }

  /** The listing without its dot-files, in listing order. */
  function Candidates(listing: seq<string>): (files: seq<string>)
    ensures forall x :: x in files <==> x in listing && !IsHidden(x)
    ensures forall x :: multiset(files)[x] == if IsHidden(x) then 0 else multiset(listing)[x]
  {
    if listing == [] then []
    else
      assert listing == [listing[0]] + listing[1..];
      (if IsHidden(listing[0]) then [] else [listing[0]]) + Candidates(listing[1..])
  }

  /** The browser variant an executable name selects, if any. */
  function KindOf(name: string): Option<BrowserKind> {
    if name == GeckoDriver then Some(Firefox)
    else if name == ChromeDriver then Some(Chrome)
    else None
  }

  /** `get_browser_factory` with the unrecognised-name branch raising the
      `ValueError` its message describes. */
  function SelectDriver(listing: seq<string>): (r: Result<Driver, DriverError>)
    ensures r.Success? ==> r.value.executable in listing && !IsHidden(r.value.executable)
    ensures r.Success? ==> Candidates(listing) == [r.value.executable]
    ensures r.Success? ==> (r.value.kind == Firefox <==> r.value.executable == GeckoDriver)
    ensures r.Success? ==> (r.value.kind == Chrome <==> r.value.executable == ChromeDriver)
    ensures |Candidates(listing)| != 1 <==> r == Failure(ExpectedOneExecutable(Candidates(listing)))
    ensures r.Failure? && r.error.UnrecognisedExecutable? ==>
              Candidates(listing) == [r.error.name] && r.error.name != GeckoDriver && r.error.name != ChromeDriver
    ensures !(r.Failure? && r.error.UndefinedName?)
    ensures Candidates(listing) == [GeckoDriver] ==> r == Success(Driver(Firefox, GeckoDriver))
    ensures Candidates(listing) == [ChromeDriver] ==> r == Success(Driver(Chrome, ChromeDriver))
    ensures forall x :: Candidates(listing) == [x] && x != GeckoDriver && x != ChromeDriver ==>
              r == Failure(UnrecognisedExecutable(x))
  {
    var files := Candidates(listing);
    if |files| != 1 then Failure(ExpectedOneExecutable(files))
    else
      var executable := files[0];
      assert files == [executable];
      match KindOf(executable)
      case Some(kind) => Success(Driver(kind, executable))
      case None => Failure(UnrecognisedExecutable(executable))
  }

  /** `get_browser_factory` as written: the unrecognised-name branch formats
      its message with `path.name`, and `path` is not defined in that scope,
      so it raises `NameError` before the `ValueError` is built. */
  function SelectDriverAsWritten(listing: seq<string>): (r: Result<Driver, DriverError>)
    ensures r.Failure? && r.error.UndefinedName? ==> r.error.identifier == "path"
    ensures !(r.Failure? && r.error.UnrecognisedExecutable?)
    ensures forall x :: Candidates(listing) == [x] && x != GeckoDriver && x != ChromeDriver ==>
              r == Failure(UndefinedName("path"))
  {
    var files := Candidates(listing);
    if |files| != 1 then Failure(ExpectedOneExecutable(files))
    else
      match KindOf(files[0])
      case Some(kind) => Success(Driver(kind, files[0]))
      case None => Failure(UndefinedName("path"))
  }

  /** The two versions agree except that every `ValueError` for an unknown
      executable is a `NameError` as written. */
  lemma AsWrittenRaisesNameError(listing: seq<string>)
    ensures SelectDriver(listing).Failure? && SelectDriver(listing).error.UnrecognisedExecutable?
            <==> SelectDriverAsWritten(listing) == Failure(UndefinedName("path"))
    ensures !(SelectDriver(listing).Failure? && SelectDriver(listing).error.UnrecognisedExecutable?)
            ==> SelectDriverAsWritten(listing) == SelectDriver(listing)
  {
  }

  /** A directory holding one unknown binary and a dot-file: the intended
      `ValueError` becomes a `NameError`. */
  lemma UnknownBinaryExample(edge: string, hidden: string)
    requires edge == "msedgedriver" && hidden == ".DS_Store"
    ensures SelectDriver([hidden, edge]) == Failure(UnrecognisedExecutable(edge))
    ensures SelectDriverAsWritten([hidden, edge]) == Failure(UndefinedName("path"))
  {
    assert IsHidden(hidden) && !IsHidden(edge);
    assert Candidates([edge]) == [edge] + Candidates([]);
    assert [hidden, edge][1..] == [edge];
    assert Candidates([hidden, edge]) == [edge];
  }

  /** Dot-files never matter: one more dot-file anywhere in the listing
      leaves the candidates as they were. */
  lemma {:induction false} HiddenFileIgnored(before: seq<string>, hidden: string, after: seq<string>)
    requires IsHidden(hidden)
    ensures Candidates(before + [hidden] + after) == Candidates(before + after)
  {
    if before == [] {
      assert before + [hidden] + after == [hidden] + after;
      assert ([hidden] + after)[1..] == after;
      assert before + after == after;
    } else {
      var listing := before + [hidden] + after;
      assert listing[0] == (before + after)[0] == before[0];
      assert listing[1..] == before[1..] + [hidden] + after;
      assert (before + after)[1..] == before[1..] + after;
      HiddenFileIgnored(before[1..], hidden, after);
    }
  }

  /** Hence a dot-file never changes which driver is chosen. */
  lemma HiddenFileIgnoredBySelection(before: seq<string>, hidden: string, after: seq<string>)
    requires IsHidden(hidden)
    ensures SelectDriver(before + [hidden] + after) == SelectDriver(before + after)
  {
    HiddenFileIgnored(before, hidden, after);
  }

  /** Listings with the same names have candidates with the same names. */
  lemma CandidatesPermute(a: seq<string>, b: seq<string>)
    requires multiset(a) == multiset(b)
    ensures multiset(Candidates(a)) == multiset(Candidates(b))
  {
    forall x ensures multiset(Candidates(a))[x] == multiset(Candidates(b))[x] {
    }
  }

  /** A one-element sequence is determined by its multiset. */
  lemma SingletonByMultiset(x: seq<string>, y: seq<string>)
    requires multiset(x) == multiset(y) && |x| == 1
    ensures x == y
  {
    assert x == [x[0]];
    assert |y| == |multiset(y)| == 1;
    assert y == [y[0]];
    assert y[0] in multiset(x);
  }

  /** The choice does not depend on the order in which the directory is
      listed: two listings with the same names select the same driver, or both fail. */
  lemma ListingOrderIrrelevant(a: seq<string>, b: seq<string>)
    requires multiset(a) == multiset(b)
    ensures SelectDriver(a).Success? <==> SelectDriver(b).Success?
    ensures SelectDriver(a).Success? ==> SelectDriver(a) == SelectDriver(b)
  {
    var ca, cb := Candidates(a), Candidates(b);
    CandidatesPermute(a, b);
    assert |ca| == |multiset(ca)| == |multiset(cb)| == |cb|;
    if |ca| == 1 {
      SingletonByMultiset(ca, cb);
    }
  }
}

=== FILE: patterns.dfy ===
/** The two extraction patterns and `_get_text`, which returns the capture
    group of the first match of a pattern or "" when it does not match.

    CID pattern, case-insensitive:    `(?:compound\scid:\s)(\d+)`
    IUPAC pattern, case-insensitive:  `(?:iupac\sname:\s)([\d\w\,\-\s]+?)(?=\s+\n)`

    Each pattern is stated twice: declaratively, as "a match starts at `i`" and
    "`i` is the leftmost start", and as a left-to-right scanner; the scanners'
    contracts connect the two. */
module Patterns {
  import opened Wrappers
  import opened Text

  // ---------------------------------------------------------------------------
  // CID

  /** Length of the non-capturing head `compound\scid:\s`. */
  const CidHead: nat := 14

  /** The head `compound<ws>cid:<ws>` occurs at `i`, ignoring case. */
  predicate CidHeadAt(t: string, i: nat) {
    i + CidHead <= |t|
    && LiteralAt(t, i, "compound") && IsSpace(t[i + 8])
    && LiteralAt(t, i + 9, "cid:") && IsSpace(t[i + 13])
  }

  /** The CID pattern matches starting at `i`: the head, then at least one digit. */
  predicate CidMatchAt(t: string, i: nat) {
    CidHeadAt(t, i) && i + CidHead < |t| && IsDigit(t[i + CidHead])
  }

  /** `i` is where the first (leftmost) CID match starts. */
  predicate IsFirstCidMatch(t: string, i: nat) {
    CidMatchAt(t, i) && forall j: nat :: j < i ==> !CidMatchAt(t, j)
  }

  /** The greedy `\d+` starting at `j`: the longest run of digits there. */
  function DigitRun(t: string, j: nat): (run: string)
    requires j <= |t|
    ensures j + |run| <= |t| && run == t[j..j + |run|]
    ensures forall k :: 0 <= k < |run| ==> IsDigit(run[k])
    ensures j + |run| == |t| || !IsDigit(t[j + |run|])
    decreases |t| - j
  {
    if j < |t| && IsDigit(t[j]) then [t[j]] + DigitRun(t, j + 1) else []
  }

  /** The leftmost start of a CID match at or after `from`. */
  function FindCid(t: string, from: nat): (r: Option<nat>)
    requires from <= |t|
    ensures r.Some? ==> from <= r.value && CidMatchAt(t, r.value)
    ensures r.Some? ==> forall j: nat :: from <= j < r.value ==> !CidMatchAt(t, j)
    ensures r.None? ==> forall j: nat :: from <= j ==> !CidMatchAt(t, j)
    decreases |t| - from
  {
    if from == |t| then None
    else if CidMatchAt(t, from) then Some(from)
    else FindCid(t, from + 1)
  }

  /** `_get_text(text, RGX_COMPOUND_CID)`. */
  function GetCid(t: string): (cid: string)
    ensures cid == "" <==> forall i: nat :: !CidMatchAt(t, i)
    ensures forall i: nat :: IsFirstCidMatch(t, i) ==> cid == DigitRun(t, i + CidHead)
    ensures forall k :: 0 <= k < |cid| ==> IsDigit(cid[k])
  {
    match FindCid(t, 0)
    case None => ""
    case Some(i) =>
      assert forall j: nat :: IsFirstCidMatch(t, j) ==> j == i;
      DigitRun(t, i + CidHead)
  }

  // ---------------------------------------------------------------------------
  // IUPAC name

  /** Length of the non-capturing head `iupac\sname:\s`. */
  const IupacHead: nat := 12

  /** The head `iupac<ws>name:<ws>` occurs at `i`, ignoring case. */
  predicate IupacHeadAt(t: string, i: nat) {
    i + IupacHead <= |t|
    && LiteralAt(t, i, "iupac") && IsSpace(t[i + 5])
    && LiteralAt(t, i + 6, "name:") && IsSpace(t[i + 11])
  }

  /** The class `[\d\w\,\-\s]`. */
  predicate InNameClass(c: char) {
    IsDigit(c) || IsWordChar(c) || c == ',' || c == '-' || IsSpace(c)
  }

  predicate AllInNameClass(t: string, lo: nat, hi: nat)
    requires lo <= hi <= |t|
  {
    forall q :: lo <= q < hi ==> InNameClass(t[q])
  }

  predicate AllSpace(t: string, lo: nat, hi: nat)
    requires lo <= hi <= |t|
  {
    forall q :: lo <= q < hi ==> IsSpace(t[q])
  }

  /** The lookahead `(?=\s+\n)` succeeds at `e`: one or more whitespace
      characters, then a line feed. */
  ghost predicate BlankLineAt(t: string, e: nat) {
    exists p: nat :: e < p < |t| && t[p] == '\n' && AllSpace(t, e, p)
  }

  /** Decides the lookahead. */
  function Lookahead(t: string, e: nat): (b: bool)
    ensures b <==> BlankLineAt(t, e)
    decreases |t| - e
  {
    if e + 1 < |t| && IsSpace(t[e]) then
      if t[e + 1] == '\n' then
        assert AllSpace(t, e, e + 1);
        true
      else
        var rest := Lookahead(t, e + 1);
        assert rest ==> BlankLineAt(t, e) by {
          if rest {
            var p: nat :| e + 1 < p < |t| && t[p] == '\n' && AllSpace(t, e + 1, p);
            assert AllSpace(t, e, p);
          }
        }
        assert BlankLineAt(t, e) ==> rest by {
          if BlankLineAt(t, e) {
            var p: nat :| e < p < |t| && t[p] == '\n' && AllSpace(t, e, p);
            assert p != e + 1;
            assert AllSpace(t, e + 1, p);
          }
        }
        rest
    else
      false
  }

  /** The lazy `+?` that has consumed `start..cur` so far: the first end `e`
      past `cur` such that everything from `cur` to `e` is in the class and the
      lookahead succeeds at `e`. */
  function LazyEnd(t: string, cur: nat): (r: Option<nat>)
    requires cur <= |t|
    ensures r.Some? ==> cur < r.value <= |t| && AllInNameClass(t, cur, r.value) && BlankLineAt(t, r.value)
    ensures r.Some? ==> forall e: nat :: cur < e < r.value ==> !BlankLineAt(t, e)
    ensures r.None? ==> forall e: nat :: cur < e <= |t| && AllInNameClass(t, cur, e) ==> !BlankLineAt(t, e)
    decreases |t| - cur
  {
    if cur < |t| && InNameClass(t[cur]) then
      if Lookahead(t, cur + 1) then Some(cur + 1)
      else
        var r := LazyEnd(t, cur + 1);
        assert forall e: nat :: cur + 1 < e <= |t| && AllInNameClass(t, cur, e) ==> AllInNameClass(t, cur + 1, e);
        r
    else
      assert forall e: nat :: cur < e <= |t| ==> !AllInNameClass(t, cur, e);
      None
  }

  /** The IUPAC pattern matches at `i` and its capture ends at `e`: `e` is the
      first end for which the class run and the lookahead both succeed. */
  ghost predicate IupacMatchAt(t: string, i: nat, e: nat) {
    IupacHeadAt(t, i) && i + IupacHead < e <= |t|
    && AllInNameClass(t, i + IupacHead, e) && BlankLineAt(t, e)
    && forall e': nat :: i + IupacHead < e' < e ==> !BlankLineAt(t, e')
  }

  /** Some IUPAC match starts at `i`. */
  ghost predicate IupacStartsAt(t: string, i: nat) {
    IupacHeadAt(t, i)
    && exists e: nat :: i + IupacHead < e <= |t| && AllInNameClass(t, i + IupacHead, e) && BlankLineAt(t, e)
  }

  /** The first (leftmost) IUPAC match starts at `i` and its capture ends at `e`. */
  ghost predicate IsFirstIupacMatch(t: string, i: nat, e: nat) {
    IupacMatchAt(t, i, e) && forall j: nat :: j < i ==> !IupacStartsAt(t, j)
  }

  /** The leftmost IUPAC match at or after `from`, as (start, end of capture). */
  function FindIupac(t: string, from: nat): (r: Option<(nat, nat)>)
    requires from <= |t|
    ensures r.Some? ==> from <= r.value.0 && IupacMatchAt(t, r.value.0, r.value.1)
    ensures r.Some? ==> forall j: nat :: from <= j < r.value.0 ==> !IupacStartsAt(t, j)
    ensures r.None? ==> forall j: nat :: from <= j ==> !IupacStartsAt(t, j)
    decreases |t| - from
  {
    if from + IupacHead > |t| then None
    else if IupacHeadAt(t, from) then
      match LazyEnd(t, from + IupacHead)
      case Some(e) => Some((from, e))
      case None => FindIupac(t, from + 1)
    else FindIupac(t, from + 1)
  }

  /** A match at `i` has exactly one capture end. */
  lemma IupacEndUnique(t: string, i: nat, e1: nat, e2: nat)
    requires IupacMatchAt(t, i, e1) && IupacMatchAt(t, i, e2)
    ensures e1 == e2
  {
  }

  /** `_get_text(text, RGX_COMPOUND_IUPAC)`. */
  function GetIupac(t: string): (name: string)
    ensures name == "" <==> forall i: nat :: !IupacStartsAt(t, i)
    ensures forall i: nat, e: nat :: IsFirstIupacMatch(t, i, e) ==> name == t[i + IupacHead..e]
    ensures forall k :: 0 <= k < |name| ==> InNameClass(name[k])
  {
    match FindIupac(t, 0)
    case None =>
      assert forall i: nat, e: nat :: IupacMatchAt(t, i, e) ==> IupacStartsAt(t, i);
      ""
    case Some((i, e)) =>
      assert IupacStartsAt(t, i);
      assert forall i': nat, e': nat :: IsFirstIupacMatch(t, i', e') ==> i' == i && e' == e by {
        forall i': nat, e': nat | IsFirstIupacMatch(t, i', e') ensures i' == i && e' == e {
          assert IupacStartsAt(t, i');
          IupacEndUnique(t, i, e, e');
        }
      }
      t[i + IupacHead..e]
  }

  /** A non-empty CID is the maximal digit run right after the head of the
      leftmost CID match. */
  lemma CidFollowsHead(t: string)
    ensures var cid := GetCid(t);
            cid != "" ==> exists i: nat :: IsFirstCidMatch(t, i) && i + CidHead + |cid| <= |t|
                                 && cid == t[i + CidHead..i + CidHead + |cid|]
                                 && (i + CidHead + |cid| == |t| || !IsDigit(t[i + CidHead + |cid|]))
  {
    var r := FindCid(t, 0);
    if r.Some? {
      assert IsFirstCidMatch(t, r.value);
    }
  }

  /** A non-empty IUPAC name occurs in the text right after the head of the
      leftmost match, and is followed there by whitespace and a line feed. */
  lemma IupacFollowedByBlankLine(t: string)
    ensures var name := GetIupac(t);
            name != "" ==> exists i: nat :: IupacHeadAt(t, i) && i + IupacHead + |name| <= |t|
                                   && name == t[i + IupacHead..i + IupacHead + |name|]
                                   && BlankLineAt(t, i + IupacHead + |name|)
  {
    var r := FindIupac(t, 0);
    if r.Some? {
      var (i, e) := r.value;
      assert IsFirstIupacMatch(t, i, e);
    }
  }

  // ---------------------------------------------------------------------------
  // Texts that start with a pattern's head

  /** A digit run that ends where the digits end is what the greedy `\d+` takes. */
  lemma {:induction false} DigitRunIs(t: string, j: nat, d: string)
    requires j + |d| <= |t| && t[j..j + |d|] == d
    requires forall k :: 0 <= k < |d| ==> IsDigit(d[k])
    requires j + |d| == |t| || !IsDigit(t[j + |d|])
    ensures DigitRun(t, j) == d
    decreases |d|
  {
    if d != [] {
      assert t[j] == d[0];
      assert t[j + 1..j + 1 + |d[1..]|] == d[1..];
      DigitRunIs(t, j + 1, d[1..]);
    }
  }

  /** A text that starts with the CID head followed by digits yields exactly
      those digits. */
  lemma CidLeading(h: string, d: string, rest: string)
    requires |h| == CidHead && CidHeadAt(h, 0)
    requires d != [] && forall k :: 0 <= k < |d| ==> IsDigit(d[k])
    requires rest == [] || !IsDigit(rest[0])
    ensures GetCid(h + d + rest) == d
  {
    var t := h + d + rest;
    assert forall k :: 0 <= k < |h| ==> t[k] == h[k];
    assert CidHeadAt(t, 0);
    assert t[CidHead] == d[0];
    assert IsFirstCidMatch(t, 0);
    assert t[CidHead..CidHead + |d|] == d;
    if rest != [] {
      assert t[CidHead + |d|] == rest[0];
    }
    DigitRunIs(t, CidHead, d);
  }

  /** A text that starts with the IUPAC head, then a name without whitespace,
      then whitespace and a line feed, yields exactly that name. */
  lemma IupacLeading(h: string, name: string, gap: string, rest: string)
    requires |h| == IupacHead && IupacHeadAt(h, 0)
    requires name != [] && forall k :: 0 <= k < |name| ==> InNameClass(name[k]) && !IsSpace(name[k])
    requires gap != [] && forall k :: 0 <= k < |gap| ==> IsSpace(gap[k])
    ensures GetIupac(h + name + gap + "\n" + rest) == name
  {
    var t := h + name + gap + "\n" + rest;
    var s, e := IupacHead, IupacHead + |name|;
    assert forall k :: 0 <= k < |h| ==> t[k] == h[k];
    assert forall k :: 0 <= k < |name| ==> t[s + k] == name[k];
    assert forall k :: 0 <= k < |gap| ==> t[e + k] == gap[k];
    assert t[e + |gap|] == '\n';
    assert IupacHeadAt(t, 0);
    assert AllInNameClass(t, s, e);
    assert AllSpace(t, e, e + |gap|);
    assert BlankLineAt(t, e);
    forall e': nat | s < e' < e ensures !BlankLineAt(t, e') {
      assert !IsSpace(t[e']);
    }
    assert IsFirstIupacMatch(t, 0, e);
    assert t[s..e] == name;
  }

  /** The head as PubChem prints it satisfies the case-insensitive CID head. */
  lemma CidHeadLiteral(h: string)
    requires h == "Compound CID: "
    ensures |h| == CidHead && CidHeadAt(h, 0)
  {
    assert LiteralAt(h, 0, "compound");
    assert LiteralAt(h, 9, "cid:");
  }

  /** The head as PubChem prints it satisfies the case-insensitive IUPAC head. */
  lemma IupacHeadLiteral(h: string)
    requires h == "IUPAC Name: "
    ensures |h| == IupacHead && IupacHeadAt(h, 0)
  {
    assert LiteralAt(h, 0, "iupac");
    assert LiteralAt(h, 6, "name:");
  }

  /** `Compound CID: 702` yields the CID `702`. */
  lemma CidExample(h: string, d: string)
    requires h == "Compound CID: " && d == "702"
    ensures GetCid(h + d + "\n") == d
  {
    CidHeadLiteral(h);
    CidLeading(h, d, "\n");
  }

  /** `IUPAC Name: ethanol` followed by a blank line yields `ethanol`. */
  lemma IupacExample(h: string, name: string, blank: string)
    requires h == "IUPAC Name: " && name == "ethanol" && blank == "\n\n"
    ensures GetIupac(h + name + blank) == name
  {
    IupacHeadLiteral(h);
    IupacLeading(h, name, "\n", "");
    assert h + name + "\n" + "\n" + "" == h + name + blank;
  }
}

=== FILE: scraping.dfy ===
/** The page-resolution and extraction pipeline: for each exposure name, load
    the search page, resolve the result card through a three-tier selector
    chain, follow a substance card once to its compound page, and extract the
    CID and IUPAC name from the card's text. */
module Scraping {
  import opened Wrappers
  import opened Text
  import opened Url
  import opened Patterns
  import opened Browser

  /** `ScrapedData`: one record per exposure name; a field that was not found is "". */
  datatype ScrapedData = ScrapedData(name: string, cid: string, iupac: string)

  /** The selectors tried in order: main, fallback, alternate fallback. */
  datatype SelectorChain = SelectorChain(main: string, fallback: string, altFallback: string)

  /** What the pipeline reads from the configuration: the base search URL and the chain. */
  datatype Target = Target(url: string, chain: SelectorChain)

  /** Exceptions that end a run. */
  datatype ScrapeError =
    | PageLoadFailed(url: string)     // `browser.get` raised
    | MissingAttribute(name: string)  // `AttributeError` on the configuration object

  /** A card lookup: the card's text, if one was found, and the queries made. */
  datatype Lookup = Lookup(card: Option<string>, log: seq<Event>)

  /** The records of a run, or the exception that ended it. */
  type RunOutcome = Result<seq<ScrapedData>, ScrapeError>

  /** A step that may raise, with the interactions it made before returning or raising. */
  datatype Step<T> = Step(outcome: Result<T, ScrapeError>, log: seq<Event>)

  function Tiers(chain: SelectorChain): seq<string> {
    [chain.main, chain.fallback, chain.altFallback]
  }

  /** One `_get_card_element_with_*_selector` helper: a single query of the loaded page. */
  function CardWithSelector(page: Page, selector: string): Lookup {
    Lookup(Find(page, selector), [Query(selector)])
  }

  // ---------------------------------------------------------------------------
  // Card resolution

  /** `get_card_element`: the tiers are queried in order and the lookup stops at
      the first one that finds an element. */
  function GetCardElement(page: Page, chain: SelectorChain): (r: Lookup)
    ensures 1 <= |r.log| <= 3
    ensures forall k :: 0 <= k < |r.log| ==> r.log[k] == Query(Tiers(chain)[k])
    ensures forall k :: 0 <= k < |r.log| - 1 ==> Find(page, Tiers(chain)[k]).None?
    ensures r.card == Find(page, Tiers(chain)[|r.log| - 1])
    ensures r.card.None? <==> forall k :: 0 <= k < 3 ==> Find(page, Tiers(chain)[k]).None?
    ensures |r.log| < 3 ==> r.card.Some?
  {
    var main := CardWithSelector(page, chain.main);
    if main.card.Some? then main
    else
      var fallback := CardWithSelector(page, chain.fallback);
      if fallback.card.Some? then Lookup(fallback.card, main.log + fallback.log)
      else
        var alt := CardWithSelector(page, chain.altFallback);
        Lookup(alt.card, main.log + fallback.log + alt.log)
  }

  /** `get_card_element` as the source's configuration type lets it run: that
      type carries a main and a fallback selector only, so reaching the third
      tier reads a missing attribute and raises. */
  function GetCardElementAsWritten(page: Page, main: string, fallback: string): (r: Step<Option<string>>)
    ensures r.outcome.Failure? <==> Find(page, main).None? && Find(page, fallback).None?
    ensures r.outcome.Failure? ==> r.outcome.error == MissingAttribute("other_fallback_selector")
    ensures r.outcome.Success? ==> r.outcome.value.Some?
    ensures r.outcome.Success? ==>
              r.outcome.value == (if Find(page, main).Some? then Find(page, main) else Find(page, fallback))
    ensures r.log == if Find(page, main).Some? then [Query(main)] else [Query(main), Query(fallback)]
  {
    var m := CardWithSelector(page, main);
    if m.card.Some? then Step(Success(m.card), m.log)
    else
      var f := CardWithSelector(page, fallback);
      if f.card.Some? then Step(Success(f.card), m.log + f.log)
      else Step(Failure(MissingAttribute("other_fallback_selector")), m.log + f.log)
  }

  /** Whenever the main or the fallback selector finds the card, the source as
      written and the three-tier chain behave identically. */
  lemma AsWrittenAgreesOnEarlyHit(page: Page, chain: SelectorChain)
    requires Find(page, chain.main).Some? || Find(page, chain.fallback).Some?
    ensures GetCardElementAsWritten(page, chain.main, chain.fallback)
            == Step(Success(GetCardElement(page, chain).card), GetCardElement(page, chain).log)
  {
  }

  /** A page on which neither of the first two selectors finds anything aborts
      the source as written, where the three-tier chain answers "no card". */
  lemma AsWrittenAbortsWhenTwoTiersMiss(chain: SelectorChain)
    ensures GetCardElementAsWritten(Page(map[]), chain.main, chain.fallback).outcome
            == Failure(MissingAttribute("other_fallback_selector"))
    ensures GetCardElement(Page(map[]), chain).card == None
  {
  }

  // ---------------------------------------------------------------------------
  // Substance redirect

  /** The literal that marks a card describing a deposited substance. */
  const SubstanceMarker := "Substance SID"

  /** The card describes a substance that refers to a compound: it contains the
      marker (case-sensitively) and a CID can be extracted from it. */
  ghost predicate IsSubstanceCard(text: string) {
    Contains(text, SubstanceMarker) && exists i: nat :: CidMatchAt(text, i)
  }

  /** The text of a lookup's card, or "" when there is none. */
  function CardText(card: Option<string>): string {
    match card
    case Some(text) => text
    case None => ""
  }

  /** A text contains its own suffix. */
  lemma EndsWith(prefix: string, pat: string)
    ensures Contains(prefix + pat, pat)
  {
    assert OccursAt(prefix + pat, |prefix|, pat);
  }

  /** A CID is made of digits only, so quoting leaves it unchanged. */
  lemma CidUrl(base: string, text: string)
    ensures MakeUrl(base, GetCid(text)) == base + GetCid(text)
  {
    QuoteIdentityIffSafe(GetCid(text));
  }

  /** `handle_substance_cards`: a substance card is followed, once, to the page
      of the CID it names; the redirect page's card text replaces the original
      only when it is non-empty. */
  function HandleSubstanceCards(web: Web, target: Target, card: Option<string>): (r: Step<string>)
    ensures card.None? ==> r == Step(Success(""), [])
    ensures Navigations(r.log) <= 1 && Closes(r.log) == 0
    ensures r.log != [] <==> card.Some? && IsSubstanceCard(card.value)
    ensures r.log != [] ==> r.log[0] == Navigate(target.url + GetCid(card.value))
    ensures r.outcome.Failure? ==> |r.log| == 1 && r.log[0].url !in web
                                   && r.outcome.error == PageLoadFailed(r.log[0].url)
    ensures |r.log| > 1 ==> r.log[0].url in web
                            && r.log[1..] == GetCardElement(web[r.log[0].url], target.chain).log
    ensures r.outcome.Success? && card.Some? && r.outcome.value != card.value ==>
              |r.log| > 1 && r.outcome.value != ""
              && GetCardElement(web[r.log[0].url], target.chain).card == Some(r.outcome.value)
    ensures card.Some? && IsSubstanceCard(card.value) ==>
              (r.outcome.Failure? <==> target.url + GetCid(card.value) !in web)
    ensures card.Some? && IsSubstanceCard(card.value) && target.url + GetCid(card.value) in web ==> |r.log| > 1
    ensures r.outcome.Success? && |r.log| > 1 && CardText(GetCardElement(web[r.log[0].url], target.chain).card) != "" ==>
              r.outcome.value == CardText(GetCardElement(web[r.log[0].url], target.chain).card)
    ensures r.outcome.Success? && card.Some? && card.value != "" ==> r.outcome.value != ""
  {
    match card
    case None => Step(Success(""), [])
    case Some(text) =>
      var cid := GetCid(text);
      var isSubstance := ContainsText(text, SubstanceMarker);
      if cid != "" && isSubstance then
        var url := MakeUrl(target.url, cid);
        CidUrl(target.url, text);
        if url !in web then Step(Failure(PageLoadFailed(url)), [Navigate(url)])
        else
          var alternate := GetCardElement(web[url], target.chain);
          QueriesOnly(alternate.log);
          CountsAppend([Navigate(url)], alternate.log);
          var alternateText := CardText(alternate.card);
          if alternateText != "" then Step(Success(alternateText), [Navigate(url)] + alternate.log)
          else Step(Success(text), [Navigate(url)] + alternate.log)
      else Step(Success(text), [])
  }

  /** What `handle_substance_cards` yields for each kind of card: an ordinary
      card is kept without interaction; a substance card loads its compound
      page, which either raises or supplies the text to use. */
  lemma HandleSubstanceCardsCases(web: Web, target: Target, card: Option<string>)
    ensures card.Some? && !IsSubstanceCard(card.value) ==>
              HandleSubstanceCards(web, target, card) == Step(Success(card.value), [])
    ensures var redirect := target.url + GetCid(CardText(card));
            card.Some? && IsSubstanceCard(card.value) && redirect !in web ==>
              HandleSubstanceCards(web, target, card) == Step(Failure(PageLoadFailed(redirect)), [Navigate(redirect)])
    ensures var redirect := target.url + GetCid(CardText(card));
            card.Some? && IsSubstanceCard(card.value) && redirect in web ==>
              var alternate := GetCardElement(web[redirect], target.chain);
              HandleSubstanceCards(web, target, card)
              == Step(Success(if CardText(alternate.card) != "" then CardText(alternate.card) else card.value),
                      [Navigate(redirect)] + alternate.log)
  {
    CidUrl(target.url, CardText(card));
  }

  /** A card that reads `Compound CID: 1234` and then `Substance SID` is a
      substance card naming the CID `1234`. */
  lemma SubstanceCardExample(head: string, cid: string, marker: string)
    requires head == "Compound CID: " && cid == "1234" && marker == SubstanceMarker
    ensures IsSubstanceCard(head + cid + "\n" + marker)
    ensures GetCid(head + cid + "\n" + marker) == cid
  {
    var text := head + cid + "\n" + marker;
    CidHeadLiteral(head);
    CidLeading(head, cid, "\n" + marker);
    assert head + cid + ("\n" + marker) == text;
    EndsWith(head + cid + "\n", marker);
  }

  /** Such a card leads to exactly one navigation, to the search URL followed
      by `1234`, however the redirect page looks. */
  lemma SubstanceRedirectExample(web: Web, target: Target, head: string, cid: string, marker: string)
    requires head == "Compound CID: " && cid == "1234" && marker == SubstanceMarker
    ensures var r := HandleSubstanceCards(web, target, Some(head + cid + "\n" + marker));
            |r.log| >= 1 && r.log[0] == Navigate(target.url + cid) && Navigations(r.log) == 1
  {
    SubstanceCardExample(head, cid, marker);
  }

  // ---------------------------------------------------------------------------
  // Extraction

  /** `extract_data_from_element`: the two patterns are applied independently
      to the same text; the name is left blank for the caller to fill in. */
  function ExtractData(text: string): (r: ScrapedData)
    ensures r.name == ""
    ensures r.cid == "" <==> forall i: nat :: !CidMatchAt(text, i)
    ensures forall i: nat :: IsFirstCidMatch(text, i) ==> r.cid == DigitRun(text, i + CidHead)
    ensures r.iupac == "" <==> forall i: nat :: !IupacStartsAt(text, i)
    ensures forall i: nat, e: nat :: IsFirstIupacMatch(text, i, e) ==> r.iupac == text[i + IupacHead..e]
  {
    ScrapedData(name := "", cid := GetCid(text), iupac := GetIupac(text))
  }

  /** The text of a missing card (or any text without either phrase) yields an
      all-empty record rather than an error. */
  lemma ExtractWithoutPhrases(text: string)
    requires forall i: nat :: !CidHeadAt(text, i) && !IupacHeadAt(text, i)
    ensures ExtractData(text) == ScrapedData("", "", "")
  {
  }

  // ---------------------------------------------------------------------------
  // One exposure name

  /** `scrape_compound`: load the URL, resolve the card, follow a substance
      card, extract. */
  function ScrapeCompound(web: Web, target: Target, url: string): (r: Step<ScrapedData>)
    ensures |r.log| >= 1 && r.log[0] == Navigate(url)
    ensures 1 <= Navigations(r.log) <= 2 && Closes(r.log) == 0
    ensures url !in web ==> r == Step(Failure(PageLoadFailed(url)), [Navigate(url)])
    ensures r.outcome.Failure? ==> r.outcome.error.PageLoadFailed? && r.outcome.error.url !in web
    ensures r.outcome.Success? ==> r.outcome.value.name == ""
    ensures url in web && GetCardElement(web[url], target.chain).card.None? ==>
              r == Step(Success(ScrapedData("", "", "")), [Navigate(url)] + GetCardElement(web[url], target.chain).log)
  {
    if url !in web then Step(Failure(PageLoadFailed(url)), [Navigate(url)])
    else
      var found := GetCardElement(web[url], target.chain);
      var handled := HandleSubstanceCards(web, target, found.card);
      QueriesOnly(found.log);
      CountsAppend([Navigate(url)], found.log);
      CountsAppend([Navigate(url)] + found.log, handled.log);
      var log := [Navigate(url)] + found.log + handled.log;
      match handled.outcome
      case Failure(e) => Step(Failure(e), log)
      case Success(text) =>
        assert found.card.None? ==> text == "" && handled.log == [];
        Step(Success(ExtractData(text)), log)
  }

  /** On a loaded page, the step's record is the extraction of whatever text
      `handle_substance_cards` yields, and its log is the page load, the card
      lookup and the redirect, in that order. */
  lemma ScrapeCompoundLoaded(web: Web, target: Target, url: string)
    requires url in web
    ensures var found := GetCardElement(web[url], target.chain);
            var handled := HandleSubstanceCards(web, target, found.card);
            var log := [Navigate(url)] + found.log + handled.log;
            ScrapeCompound(web, target, url)
            == if handled.outcome.Success? then Step(Success(ExtractData(handled.outcome.value)), log)
               else Step(Failure(handled.outcome.error), log)
  {
  }

  /** An ordinary card: the record is extracted from the card itself, and the
      step makes no interaction beyond the page load and the card lookup. */
  lemma ScrapeCompoundOrdinaryCard(web: Web, target: Target, url: string)
    requires url in web
    ensures var found := GetCardElement(web[url], target.chain);
            found.card.Some? && !IsSubstanceCard(found.card.value) ==>
              ScrapeCompound(web, target, url) == Step(Success(ExtractData(found.card.value)), [Navigate(url)] + found.log)
  {
    var found := GetCardElement(web[url], target.chain);
    ScrapeCompoundLoaded(web, target, url);
    HandleSubstanceCardsCases(web, target, found.card);
    assert [Navigate(url)] + found.log + [] == [Navigate(url)] + found.log;
  }

  /** A substance card whose compound page cannot be loaded ends the step
      with that page's load failure. */
  lemma ScrapeCompoundRedirectFails(web: Web, target: Target, url: string)
    requires url in web
    ensures var found := GetCardElement(web[url], target.chain);
            var redirect := target.url + GetCid(CardText(found.card));
            found.card.Some? && IsSubstanceCard(found.card.value) && redirect !in web ==>
              ScrapeCompound(web, target, url)
              == Step(Failure(PageLoadFailed(redirect)), [Navigate(url)] + found.log + [Navigate(redirect)])
  {
    ScrapeCompoundLoaded(web, target, url);
    HandleSubstanceCardsCases(web, target, GetCardElement(web[url], target.chain).card);
  }

  /** A substance card whose compound page loads: the record is extracted from
      that page's card when it has text, and from the substance card otherwise. */
  lemma ScrapeCompoundRedirected(web: Web, target: Target, url: string)
    requires url in web
    ensures var found := GetCardElement(web[url], target.chain);
            var redirect := target.url + GetCid(CardText(found.card));
            found.card.Some? && IsSubstanceCard(found.card.value) && redirect in web ==>
              var alternate := GetCardElement(web[redirect], target.chain);
              var text := if CardText(alternate.card) != "" then CardText(alternate.card) else found.card.value;
              ScrapeCompound(web, target, url)
              == Step(Success(ExtractData(text)), [Navigate(url)] + found.log + [Navigate(redirect)] + alternate.log)
  {
    var found := GetCardElement(web[url], target.chain);
    var redirect := target.url + GetCid(CardText(found.card));
    if found.card.Some? && IsSubstanceCard(found.card.value) && redirect in web {
      var alternate := GetCardElement(web[redirect], target.chain);
      var text := if CardText(alternate.card) != "" then CardText(alternate.card) else found.card.value;
      var handled := HandleSubstanceCards(web, target, found.card);
      assert handled == Step(Success(text), [Navigate(redirect)] + alternate.log) by {
        HandleSubstanceCardsCases(web, target, found.card);
      }
      assert ScrapeCompound(web, target, url)
             == Step(Success(ExtractData(text)), [Navigate(url)] + found.log + handled.log) by {
        ScrapeCompoundLoaded(web, target, url);
      }
      AppendAssoc([Navigate(url)] + found.log, [Navigate(redirect)], alternate.log);
    }
  }

  lemma AppendAssoc<T>(a: seq<T>, b: seq<T>, c: seq<T>)
    ensures a + (b + c) == a + b + c
  {
  }

  /** `result.name = exposure_name`. */
  function Stamp(record: ScrapedData, name: string): ScrapedData {
    record.(name := name)
  }

  /** The search URL for an exposure name, and the step that scrapes it. */
  function ScrapeName(web: Web, target: Target, name: string): Step<ScrapedData> {
    ScrapeCompound(web, target, MakeUrl(target.url, name))
  }

  // ---------------------------------------------------------------------------
  // The orchestrator

  /** The per-name step of `scrape` for a given browser and configuration. */
  function PerName(web: Web, target: Target): string -> Step<ScrapedData> {
    name => ScrapeName(web, target, name)
  }

  /** The per-name step never closes the session and loads at most two pages. */
  ghost predicate WellBehaved(scrapeOne: string -> Step<ScrapedData>) {
    forall name :: Closes(scrapeOne(name).log) == 0 && Navigations(scrapeOne(name).log) <= 2
  }

  lemma PerNameWellBehaved(web: Web, target: Target)
    ensures WellBehaved(PerName(web, target))
  {
    forall name ensures Closes(PerName(web, target)(name).log) == 0 && Navigations(PerName(web, target)(name).log) <= 2 {
      var r := ScrapeName(web, target, name);
    }
  }

  /** What `scrape` computes before the session is closed: the names are
      scraped in order, each record is stamped with its name, and the first
      exception ends the run with no partial result. */
  function ScrapeAll(scrapeOne: string -> Step<ScrapedData>, names: seq<string>): Step<seq<ScrapedData>>
    decreases |names|
  {
    if names == [] then Step(Success([]), [])
    else
      var prefix := ScrapeAll(scrapeOne, names[..|names| - 1]);
      var last := names[|names| - 1];
      match prefix.outcome
      case Failure(_) => prefix
      case Success(records) =>
        var step := scrapeOne(last);
        match step.outcome
        case Failure(e) => Step(Failure(e), prefix.log + step.log)
        case Success(record) => Step(Success(records + [Stamp(record, last)]), prefix.log + step.log)
  }

  /** Once a prefix of the names has raised, the rest of the names change nothing. */
  lemma {:induction false} FailureEndsRun(scrapeOne: string -> Step<ScrapedData>, names: seq<string>, n: nat)
    requires n <= |names|
    requires ScrapeAll(scrapeOne, names[..n]).outcome.Failure?
    ensures ScrapeAll(scrapeOne, names) == ScrapeAll(scrapeOne, names[..n])
    decreases |names|
  {
    if n < |names| {
      var init := names[..|names| - 1];
      assert init[..n] == names[..n];
      FailureEndsRun(scrapeOne, init, n);
    } else {
      assert names[..n] == names;
    }
  }

  /** The run succeeds exactly when every exposure name can be scraped. */
  lemma {:induction false} ScrapeAllSucceedsIff(scrapeOne: string -> Step<ScrapedData>, names: seq<string>)
    ensures ScrapeAll(scrapeOne, names).outcome.Success?
            <==> forall i :: 0 <= i < |names| ==> scrapeOne(names[i]).outcome.Success?
    decreases |names|
  {
    if names != [] {
      var init := names[..|names| - 1];
      ScrapeAllSucceedsIff(scrapeOne, init);
      assert forall i :: 0 <= i < |init| ==> init[i] == names[i];
    }
  }

  /** A successful run holds one record per name, in input order, each the
      record scraped for that name stamped with the name itself. */
  lemma {:induction false} ScrapeAllRecords(scrapeOne: string -> Step<ScrapedData>, names: seq<string>)
    requires ScrapeAll(scrapeOne, names).outcome.Success?
    ensures |ScrapeAll(scrapeOne, names).outcome.value| == |names|
    ensures forall i :: 0 <= i < |names| ==> scrapeOne(names[i]).outcome.Success?
    ensures forall i :: 0 <= i < |names| ==>
              ScrapeAll(scrapeOne, names).outcome.value[i] == Stamp(scrapeOne(names[i]).outcome.value, names[i])
    ensures forall i :: 0 <= i < |names| ==> ScrapeAll(scrapeOne, names).outcome.value[i].name == names[i]
    decreases |names|
  {
    if names != [] {
      var init := names[..|names| - 1];
      ScrapeAllRecords(scrapeOne, init);
      assert forall i :: 0 <= i < |init| ==> init[i] == names[i];
    }
  }

  /** A failed run reports the exception of the first name that raised. */
  lemma {:induction false} ScrapeAllFirstFailure(scrapeOne: string -> Step<ScrapedData>, names: seq<string>)
    requires ScrapeAll(scrapeOne, names).outcome.Failure?
    ensures exists i :: 0 <= i < |names| && scrapeOne(names[i]).outcome == Failure(ScrapeAll(scrapeOne, names).outcome.error)
                        && (forall j :: 0 <= j < i ==> scrapeOne(names[j]).outcome.Success?)
    decreases |names|
  {
    var init := names[..|names| - 1];
    assert forall i :: 0 <= i < |init| ==> init[i] == names[i];
    if ScrapeAll(scrapeOne, init).outcome.Failure? {
      ScrapeAllFirstFailure(scrapeOne, init);
    } else {
      ScrapeAllSucceedsIff(scrapeOne, init);
      assert scrapeOne(names[|init|]).outcome == Failure(ScrapeAll(scrapeOne, names).outcome.error);
    }
  }

  /** A run of well-behaved steps loads at most two pages per name and leaves
      the session open. */
  lemma {:induction false} ScrapeAllLog(scrapeOne: string -> Step<ScrapedData>, names: seq<string>)
    requires WellBehaved(scrapeOne)
    ensures OpenLog(ScrapeAll(scrapeOne, names).log, |names|)
    decreases |names|
  {
    if names != [] {
      var init := names[..|names| - 1];
      ScrapeAllLog(scrapeOne, init);
      var step := scrapeOne(names[|names| - 1]);
      ExtendOpenLog(ScrapeAll(scrapeOne, init).log, step.log, |init|);
    }
  }

  /** `scrape`: the names are scraped in order as `ScrapeAll` describes, and on
      every path, normal or exceptional, the session is then closed exactly
      once, as the last interaction (the `finally` clause). */
  method Scrape(names: seq<string>, web: Web, target: Target)
    returns (results: RunOutcome, log: seq<Event>)
    ensures results == ScrapeAll(PerName(web, target), names).outcome
    ensures log == ScrapeAll(PerName(web, target), names).log + [Close]
    ensures log[|log| - 1] == Close && Closes(log) == 1
    ensures Navigations(log) <= 2 * |names|
    ensures results.Success? ==> |results.value| == |names|
                                 && forall i :: 0 <= i < |names| ==> results.value[i].name == names[i]
  {
    var scrapeOne := PerName(web, target);
    var acc: seq<ScrapedData> := [];
    log := [];
    var i := 0;
    while i < |names|
      invariant 0 <= i <= |names|
      invariant ScrapeAll(scrapeOne, names[..i]) == Step(Success(acc), log)
    {
      var step := scrapeOne(names[i]);
      assert names[..i + 1][..i] == names[..i];
      log := log + step.log;
      if step.outcome.Failure? {
        FailureEndsRun(scrapeOne, names, i + 1);
        results := Failure(step.outcome.error);
        break;
      }
      acc := acc + [Stamp(step.outcome.value, names[i])];
      i := i + 1;
    }
    if i == |names| {
      assert names[..i] == names;
      results := Success(acc);
      ScrapeAllRecords(scrapeOne, names);
    }
    PerNameWellBehaved(web, target);
    ScrapeAllLog(scrapeOne, names);
    CloseOpenLog(ScrapeAll(scrapeOne, names).log, |names|, |names|);
    log := log + [Close];
  }
}

=== FILE: text.dfy ===
/** Character classes and literal matching used by the extraction patterns. */
module Text {
  import opened Wrappers

  /** Python's `str.isspace` set, which is what `\s` matches in a `str` pattern. */
  predicate IsSpace(c: char) {
    var n := c as int;
    (0x09 <= n <= 0x0D) || (0x1C <= n <= 0x20) || n == 0x85 || n == 0xA0 || n == 0x1680
    || (0x2000 <= n <= 0x200A) || n == 0x2028 || n == 0x2029 || n == 0x202F
    || n == 0x205F || n == 0x3000
  }

  /** `\d`, restricted to the ASCII decimal digits. */
  predicate IsDigit(c: char) {
    '0' <= c <= '9'
  }

  /** `\w`, restricted to ASCII letters, digits and the underscore. */
  predicate IsWordChar(c: char) {
    'a' <= c <= 'z' || 'A' <= c <= 'Z' || IsDigit(c) || c == '_'
  }

  /** Whether the text character `c` matches the pattern character `p` under
      `re.IGNORECASE`: a lower-case pattern letter also matches its ASCII
      upper-case form, and `i` also matches the two Turkish i's, whose simple
      lower-case or upper-case mapping is the ASCII letter. */
  predicate MatchesIgnoringCase(c: char, p: char) {
    c == p
    || ('a' <= p <= 'z' && c as int == p as int - 0x20)
    || (p == 'i' && (c as int == 0x130 || c as int == 0x131))
  }

  /** The literal `lit` (written in lower case) occurs at position `i` of `t`,
      ignoring case. */
  predicate LiteralAt(t: string, i: nat, lit: string) {
    i + |lit| <= |t| && forall k :: 0 <= k < |lit| ==> MatchesIgnoringCase(t[i + k], lit[k])
  }

  /** `pat` occurs in `t` at position `i`, case-sensitively. */
  predicate OccursAt(t: string, i: nat, pat: string) {
    i + |pat| <= |t| && t[i..i + |pat|] == pat
  }

  /** Python's `pat in t` for two strings. */
  ghost predicate Contains(t: string, pat: string) {
    exists i: nat :: OccursAt(t, i, pat)
  }

  /** The position of the first occurrence of `pat` in `t` at or after `from`. */
  function IndexOf(t: string, pat: string, from: nat): (r: Option<nat>)
    requires from <= |t|
    ensures r.Some? ==> from <= r.value && OccursAt(t, r.value, pat)
    ensures r.Some? ==> forall i: nat :: from <= i < r.value ==> !OccursAt(t, i, pat)
    ensures r.None? ==> forall i: nat :: from <= i ==> !OccursAt(t, i, pat)
    decreases |t| - from
  {
    if from + |pat| > |t| then None
    else if t[from..from + |pat|] == pat then Some(from)
    else IndexOf(t, pat, from + 1)
  }

  /** Decides `Contains` by scanning from the start. */
  function ContainsText(t: string, pat: string): (b: bool)
    ensures b <==> Contains(t, pat)
  {
    IndexOf(t, pat, 0).Some?
  }
}

=== FILE: url.dfy ===
/** The URL builder: `urllib.parse.quote` with its default `safe='/'`, applied
    to an exposure name and appended to the configured base URL.

    `quote` first encodes the `str` as UTF-8, then keeps every byte that is an
    unreserved character of section 2.3 of RFC 3986 (ASCII letters, digits and
    `_.-~`) or `/`, and writes every other byte as `%` followed by two
    upper-case hexadecimal digits (section 2.1 of RFC 3986). */
module Url {
  import opened Wrappers

  /** An octet. */
  type Byte = b: int | 0 <= b < 0x100

  // ---------------------------------------------------------------------------
  // UTF-8

  predicate IsContinuation(b: Byte) {
    0x80 <= b < 0xC0
  }

  /** The UTF-8 encoding of one Unicode scalar value. */
  function EncodeChar(c: char): (bs: seq<Byte>)
    ensures 1 <= |bs| <= 4
    ensures (|bs| == 1) <==> c as int < 0x80
  {
    var n := c as int;
    if n < 0x80 then [n]
    else if n < 0x800 then [0xC0 + n / 0x40, 0x80 + n % 0x40]
    else if n < 0x1_0000 then [0xE0 + n / 0x1000, 0x80 + (n / 0x40) % 0x40, 0x80 + n % 0x40]
    else [0xF0 + n / 0x4_0000, 0x80 + (n / 0x1000) % 0x40, 0x80 + (n / 0x40) % 0x40, 0x80 + n % 0x40]
  }

  /** The UTF-8 encoding of a string (Python's `s.encode("utf-8")`). */
  function Encode(s: string): (bs: seq<Byte>)
    ensures |bs| >= |s|
  {
    if s == [] then [] else EncodeChar(s[0]) + Encode(s[1..])
  }

  /** Decodes the scalar value at the front of `bs`, with the number of bytes
      it occupies; `None` for a malformed, overlong or surrogate sequence. */
  function DecodeChar(bs: seq<Byte>): (r: Option<(char, nat)>)
    ensures r.Some? ==> 1 <= r.value.1 <= |bs|
  {
    if |bs| == 0 then None
    else if bs[0] < 0x80 then Some((bs[0] as char, 1))
    else if 0xC2 <= bs[0] < 0xE0 && 2 <= |bs| && IsContinuation(bs[1]) then
      Some((((bs[0] as int - 0xC0) * 0x40 + (bs[1] as int - 0x80)) as char, 2))
    else if 0xE0 <= bs[0] < 0xF0 && 3 <= |bs| && IsContinuation(bs[1]) && IsContinuation(bs[2]) then
      var n := (bs[0] as int - 0xE0) * 0x1000 + (bs[1] as int - 0x80) * 0x40 + (bs[2] as int - 0x80);
      if 0x800 <= n && !(0xD800 <= n < 0xE000) then Some((n as char, 3)) else None
    else if 0xF0 <= bs[0] < 0xF5 && 4 <= |bs| && IsContinuation(bs[1]) && IsContinuation(bs[2])
            && IsContinuation(bs[3]) then
      var n := (bs[0] as int - 0xF0) * 0x4_0000 + (bs[1] as int - 0x80) * 0x1000 + (bs[2] as int - 0x80) * 0x40 + (bs[3] as int - 0x80);
      if 0x1_0000 <= n < 0x11_0000 then Some((n as char, 4)) else None
    else None
  }

  /** Decodes a whole UTF-8 byte sequence. */
  function Decode(bs: seq<Byte>): Option<string>
    decreases |bs|
  {
    if bs == [] then Some([])
    else match DecodeChar(bs)
      case None => None
      case Some((c, len)) =>
        match Decode(bs[len..])
        case None => None
        case Some(rest) => Some([c] + rest)
  }

  lemma DivideTwice(n: nat)
    ensures n / 0x1000 == (n / 0x40) / 0x40
    ensures n / 0x4_0000 == (n / 0x1000) / 0x40
  {
    var q := n / 0x40;
    assert n == q * 0x40 + n % 0x40;
    var p := q / 0x40;
    assert q == p * 0x40 + q % 0x40;
    assert n == p * 0x1000 + (q % 0x40) * 0x40 + n % 0x40;
    var r := n / 0x1000;
    assert n == r * 0x1000 + n % 0x1000;
    var s := r / 0x40;
    assert r == s * 0x40 + r % 0x40;
    assert n == s * 0x4_0000 + (r % 0x40) * 0x1000 + n % 0x1000;
  }

  lemma DecodeTwoBytes(c: char, rest: seq<Byte>)
    requires 0x80 <= c as int < 0x800
    ensures DecodeChar(EncodeChar(c) + rest) == Some((c, 2))
  {
    var n := c as int;
    var bs := EncodeChar(c) + rest;
    assert (bs[0] as int - 0xC0) * 0x40 + (bs[1] as int - 0x80) == n;
  }

  lemma DecodeThreeBytes(c: char, rest: seq<Byte>)
    requires 0x800 <= c as int < 0x1_0000
    ensures DecodeChar(EncodeChar(c) + rest) == Some((c, 3))
  {
    var n := c as int;
    var bs := EncodeChar(c) + rest;
    DivideTwice(n);
    assert (bs[0] as int - 0xE0) * 0x1000 + (bs[1] as int - 0x80) * 0x40 + (bs[2] as int - 0x80) == n;
  }

  lemma DecodeFourBytes(c: char, rest: seq<Byte>)
    requires 0x1_0000 <= c as int
    ensures DecodeChar(EncodeChar(c) + rest) == Some((c, 4))
  {
    var n := c as int;
    var bs := EncodeChar(c) + rest;
    DivideTwice(n);
    assert (bs[0] as int - 0xF0) * 0x4_0000 + (bs[1] as int - 0x80) * 0x1000 + (bs[2] as int - 0x80) * 0x40 + (bs[3] as int - 0x80) == n;
  }

  /** Decoding the encoding of `c` recovers `c` and consumes exactly its bytes. */
  lemma DecodeEncodeChar(c: char, rest: seq<Byte>)
    ensures DecodeChar(EncodeChar(c) + rest) == Some((c, |EncodeChar(c)|))
  {
    var n := c as int;
    if n < 0x80 {
    } else if n < 0x800 {
      DecodeTwoBytes(c, rest);
    } else if n < 0x1_0000 {
      DecodeThreeBytes(c, rest);
    } else {
      DecodeFourBytes(c, rest);
    }
  }

  /** UTF-8 decoding inverts UTF-8 encoding. */
  lemma {:induction false} DecodeEncode(s: string)
    ensures Decode(Encode(s)) == Some(s)
  {
    if s != [] {
      var head := EncodeChar(s[0]);
      assert Encode(s) == head + Encode(s[1..]);
      DecodeEncodeChar(s[0], Encode(s[1..]));
      assert Encode(s)[|head|..] == Encode(s[1..]);
      DecodeEncode(s[1..]);
      assert [s[0]] + s[1..] == s;
    }
  }

  // ---------------------------------------------------------------------------
  // Percent-encoding

  /** The unreserved characters of section 2.3 of RFC 3986. */
  predicate IsUnreserved(c: char) {
    'A' <= c <= 'Z' || 'a' <= c <= 'z' || '0' <= c <= '9' || c == '_' || c == '.' || c == '-' || c == '~'
  }

  /** The characters `quote` leaves unescaped: the unreserved ones and its default `safe='/'`. */
  predicate IsSafe(c: char) {
    IsUnreserved(c) || c == '/'
  }

  /** The upper-case hexadecimal digit for `d`. */
  function HexDigit(d: nat): (c: char)
    requires d < 16
  {
    if d < 10 then ('0' as int + d) as char else ('A' as int + d - 10) as char
  }

  /** The value of an upper-case hexadecimal digit. */
  function HexValue(c: char): (r: Option<nat>)
    ensures r.Some? ==> r.value < 16 && HexDigit(r.value) == c
  {
    if '0' <= c <= '9' then Some(c as int - '0' as int)
    else if 'A' <= c <= 'F' then Some(c as int - 'A' as int + 10)
    else None
  }

  /** How `quote` writes one byte. */
  function QuoteByte(b: Byte): (q: string)
    ensures |q| == 1 || |q| == 3
    ensures forall k :: 0 <= k < |q| ==> IsSafe(q[k]) || q[k] == '%'
    ensures |q| == 1 <==> b < 0x80 && IsSafe(b as char)
    ensures |q| == 1 ==> q[0] as int == b
    ensures |q| == 3 ==> q[0] == '%' && HexValue(q[1]).Some? && HexValue(q[2]).Some?
                         && HexValue(q[1]).value * 16 + HexValue(q[2]).value == b
  {
    if b < 0x80 && IsSafe(b as char) then [b as char]
    else ['%', HexDigit(b / 16), HexDigit(b % 16)]
  }

  /** `quote_from_bytes` with `safe='/'`. */
  function QuoteBytes(bs: seq<Byte>): (q: string)
    ensures |q| >= |bs|
    ensures forall k :: 0 <= k < |q| ==> IsSafe(q[k]) || q[k] == '%'
  {
    if bs == [] then [] else QuoteByte(bs[0]) + QuoteBytes(bs[1..])
  }

  /** `urllib.parse.quote(s)`: UTF-8 encode, then percent-encode. */
  function Quote(s: string): string {
    QuoteBytes(Encode(s))
  }

  /** `_make_url`: the escaped exposure name appended to the base URL, with no
      separator in between. */
  function MakeUrl(base: string, name: string): (url: string)
    ensures |url| >= |base| + |name|
    ensures url[..|base|] == base
    ensures forall k :: |base| <= k < |url| ==> IsSafe(url[k]) || url[k] == '%'
  {
    base + Quote(name)
  }

  // ---------------------------------------------------------------------------
  // The inverse of quoting

  /** Reads back the bytes of a string written by `QuoteBytes`. */
  function UnquoteBytes(q: string): Option<seq<Byte>>
    decreases |q|
  {
    if q == [] then Some([])
    else if q[0] == '%' then
      if |q| < 3 then None
      else match (HexValue(q[1]), HexValue(q[2]), UnquoteBytes(q[3..]))
        case (Some(hi), Some(lo), Some(rest)) => Some([hi * 16 + lo] + rest)
        case _ => None
    else if IsSafe(q[0]) then
      match UnquoteBytes(q[1..])
      case Some(rest) => Some([q[0] as int] + rest)
      case None => None
    else None
  }

  /** Reads back the string whose quoted form is `q`. */
  function Unquote(q: string): Option<string> {
    match UnquoteBytes(q)
    case Some(bs) => Decode(bs)
    case None => None
  }

  lemma UnquoteQuoteByte(b: Byte, rest: string)
    ensures UnquoteBytes(QuoteByte(b) + rest) ==
              match UnquoteBytes(rest) case Some(r) => Some([b] + r) case None => None
  {
    var q := QuoteByte(b) + rest;
    if b < 0x80 && IsSafe(b as char) {
      assert q[1..] == rest;
    } else {
      assert q[3..] == rest;
      assert HexValue(q[1]) == Some(b / 16);
      assert HexValue(q[2]) == Some(b % 16);
    }
  }

  /** Reading back the bytes inverts byte quoting. */
  lemma {:induction false} UnquoteQuoteBytes(bs: seq<Byte>)
    ensures UnquoteBytes(QuoteBytes(bs)) == Some(bs)
  {
    if bs != [] {
      UnquoteQuoteBytes(bs[1..]);
      UnquoteQuoteByte(bs[0], QuoteBytes(bs[1..]));
      assert [bs[0]] + bs[1..] == bs;
    }
  }

  /** Quoting loses nothing: the exposure name can be read back from its escaped form. */
  lemma QuoteRoundTrip(s: string)
    ensures Unquote(Quote(s)) == Some(s)
  {
    UnquoteQuoteBytes(Encode(s));
    DecodeEncode(s);
  }

  /** Distinct exposure names give distinct URLs under the same base. */
  lemma MakeUrlInjective(base: string, a: string, b: string)
    requires MakeUrl(base, a) == MakeUrl(base, b)
    ensures a == b
  {
    assert Quote(a) == MakeUrl(base, a)[|base|..];
    assert Quote(b) == MakeUrl(base, b)[|base|..];
    QuoteRoundTrip(a);
    QuoteRoundTrip(b);
  }

  /** How `quote` writes one character: a safe character as itself, any other
      as at least one `%XX` triple. */
  lemma QuoteChar(c: char)
    ensures IsSafe(c) ==> QuoteBytes(EncodeChar(c)) == [c]
    ensures !IsSafe(c) ==> |QuoteBytes(EncodeChar(c))| >= |EncodeChar(c)| + 2
  {
    var bs := EncodeChar(c);
    QuoteBytesAppend([bs[0]], bs[1..]);
    assert [bs[0]] + bs[1..] == bs;
  }

  /** Quoting a string is quoting its first character, then the rest. */
  lemma QuoteCons(s: string)
    requires s != []
    ensures Quote(s) == QuoteBytes(EncodeChar(s[0])) + Quote(s[1..])
  {
    QuoteBytesAppend(EncodeChar(s[0]), Encode(s[1..]));
  }

  /** Every character of `s` is left unescaped by `quote`. */
  predicate AllSafe(s: string) {
    forall k :: 0 <= k < |s| ==> IsSafe(s[k])
  }

  lemma AllSafeCons(s: string)
    requires s != []
    ensures AllSafe(s) <==> IsSafe(s[0]) && AllSafe(s[1..])
  {
    if IsSafe(s[0]) && AllSafe(s[1..]) {
      forall k | 0 <= k < |s| ensures IsSafe(s[k]) {
        if k > 0 { assert s[k] == s[1..][k - 1]; }
      }
    }
  }

  /** Quoting is the identity on exactly the strings made of safe characters:
      every other character is expanded to at least one `%XX` triple. */
  lemma {:induction false} QuoteIdentityIffSafe(s: string)
    ensures Quote(s) == s <==> AllSafe(s)
    ensures !AllSafe(s) ==> |Quote(s)| > |s|
  {
    if s != [] {
      QuoteIdentityIffSafe(s[1..]);
      QuoteCons(s);
      QuoteChar(s[0]);
      AllSafeCons(s);
      if IsSafe(s[0]) && AllSafe(s[1..]) {
        assert Quote(s) == [s[0]] + s[1..];
      } else if IsSafe(s[0]) {
        assert Quote(s) == [s[0]] + Quote(s[1..]);
      }
    }
  }

  lemma {:induction false} QuoteBytesAppend(a: seq<Byte>, b: seq<Byte>)
    ensures QuoteBytes(a + b) == QuoteBytes(a) + QuoteBytes(b)
  {
    if a == [] {
      assert a + b == b;
    } else {
      assert (a + b)[0] == a[0];
      assert (a + b)[1..] == a[1..] + b;
      QuoteBytesAppend(a[1..], b);
    }
  }

  lemma {:induction false} EncodeAppend(a: string, b: string)
    ensures Encode(a + b) == Encode(a) + Encode(b)
  {
    if a == [] {
      assert a + b == b;
    } else {
      var ab := a + b;
      assert ab[0] == a[0] && ab[1..] == a[1..] + b;
      EncodeAppend(a[1..], b);
      calc {
        Encode(ab);
        EncodeChar(a[0]) + Encode(a[1..] + b);
        EncodeChar(a[0]) + (Encode(a[1..]) + Encode(b));
        (EncodeChar(a[0]) + Encode(a[1..])) + Encode(b);
      }
    }
  }

  /** Quoting works character by character. */
  lemma QuoteAppend(a: string, b: string)
    ensures Quote(a + b) == Quote(a) + Quote(b)
  {
    EncodeAppend(a, b);
    QuoteBytesAppend(Encode(a), Encode(b));
  }

  lemma QuoteSpace()
    ensures Quote(" ") == "%20"
  {
    assert Encode(" ") == [0x20];
    assert QuoteBytes([0x20]) == QuoteByte(0x20) + QuoteBytes([]);
  }

  lemma QuoteWord(w: string)
    requires forall k :: 0 <= k < |w| ==> 'a' <= w[k] <= 'z'
    ensures Quote(w) == w
  {
    QuoteIdentityIffSafe(w);
  }

  /** A space between two words is written as `%20`. */
  lemma QuoteSpaceBetween(a: string, b: string)
    ensures Quote(a + " " + b) == Quote(a) + "%20" + Quote(b)
  {
    QuoteSpace();
    QuoteAppend(a + " ", b);
    QuoteAppend(a, " ");
  }

  /** The exposure name "ethyl benzene" is appended to the base as
      "ethyl%20benzene". */
  lemma MakeUrlExample(base: string, a: string, b: string)
    requires a == "ethyl" && b == "benzene"
    ensures MakeUrl(base, a + " " + b) == base + a + "%20" + b
  {
    QuoteSpaceBetween(a, b);
    assert forall k :: 0 <= k < |a| ==> 'a' <= a[k] <= 'z';
    QuoteWord(a);
    assert forall k :: 0 <= k < |b| ==> 'a' <= b[k] <= 'z';
    QuoteWord(b);
    assert MakeUrl(base, a + " " + b) == base + (a + "%20" + b);
  }
}

=== FILE: wrappers.dfy ===
/** `Option` and `Result`, shared by the whole model. */
module Wrappers {

  /** A value that may be absent; stands for Python's `Optional[...]` / `None`. */
  datatype Option<+T> = None | Some(value: T)

  /** The outcome of a step that may raise: the value, or the exception it raised. */
  datatype Result<+T, +E> = Success(value: T) | Failure(error: E)
}
